=== FILE: README.md ===
# np-payment-sdk dispatch core, modelled in Dafny

This project models the provider-agnostic core of `np-payment-sdk`, a TypeScript
SDK that puts one request/response shape over Nepali payment gateways (eSewa,
Khalti, ConnectIPS, IME Pay, Mobile Banking). It covers these parts:

- the `PaymentSDK` dispatcher. Its constructor decides which adapters exist. `pay` runs a
  five-step validation chain. `pay`, `verify` and `refund` then dispatch through a closed
  switch over the five `GatewayType` keys and normalise thrown errors.
- the transaction ledger, an append-only list with first-match lookup and update.
- the standalone event bus, which keeps a handler list per event name.
- the webhook intake decision.
- the four deterministic mock adapters. Khalti is an abstract adapter.
- the shared types: results, status enums, `PaymentError` and the `IPaymentGateway` capability interface.
- the example server's request validator and error responder.

Everything is sequential and pure. JavaScript values are one datatype, `Js.JsValue`.
`Js` defines truthiness, `typeof`, `||` and property reads once. Thrown exceptions become
`Result` values. The module-level ledger array and the listener table are explicit state
values. The wall clock is a `now` argument.

Files, one module each: `wrappers.dfy` (`Option`, `Result`), `js.dfy`, `types.dfy`
(`PaymentTypes`), `esewa.dfy`, `khalti.dfy`, `connectips.dfy`, `imepay.dfy`,
`mobilebanking.dfy` (the adapters), `payment_sdk.dfy` (`PaymentSdk`),
`payment_sdk_properties.dfy` (properties spanning several calls),
`transaction_store.dfy`, `event_bus.dfy`, `webhook.dfy`, `validate_payment.dfy`,
`error_handler.dfy`.

## Model

| member | source | states |
|---|---|---|
| PaymentTypes.ParsePaymentStatus | src/types/gateway.ts:9-14 | A payment/wallet status is exactly one of 'success' and 'failure'. Parsing is the inverse of each status's string. |
| PaymentTypes.ParseSubscriptionStatus | src/types/gateway.ts:37-42 | A subscription status is exactly one of 'active', 'inactive' and 'cancelled'. Parsing inverts the string. |
| PaymentTypes.ParseInvoiceStatus | src/types/gateway.ts:52-57 | An invoice status is exactly one of 'created', 'paid' and 'cancelled'. Parsing inverts the string. |
| PaymentTypes.PaymentParamsFromJs | src/types/index.ts:1-7 | A plain object is a `PaymentParams` exactly when gateway, currency and returnUrl are strings and amount is a non-NaN number. Every other field goes to the extra bag. |
| PaymentTypes.PaymentParamsRoundTrip | src/types/index.ts:1-7 | Encoding a payment request as an object and reading it back returns the same request. |
| PaymentTypes.PaymentParamsFromJsInverse | src/types/index.ts:1-7 | Reading a well-typed payment object and encoding it again returns the same object. |
| PaymentTypes.VerifyParamsFromJs | src/types/gateway.ts:16-28 | Verify/refund params need gateway, transactionId and amount. They need no currency and no returnUrl. |
| PaymentTypes.VerifyParamsRoundTrip | src/types/gateway.ts:16-28 | Encoding a verify/refund request and reading it back returns the same request. |
| PaymentTypes.VerifyParamsFromJsInverse | src/types/gateway.ts:16-28 | Reading a well-typed verify/refund object and encoding it again returns the same object. |
| PaymentTypes.MandatoryOperations | src/types/gateway.ts:77-102 | An adapter conforms exactly when it has pay, verify and refund. Adding or removing subscribe, createInvoice or wallet never changes conformance. |
| EsewaAdapter.New | src/gateways/esewa.ts:12-14 | `baseUrl` is the configured one when that is truthy. Otherwise it is 'https://uat.esewa.com.np'. |
| EsewaAdapter.PayFailure | src/gateways/esewa.ts:39-42 | The catch block rethrows as ESEWA_PAYMENT_ERROR, with the Error's message or 'eSewa payment failed' when it is empty. |
| EsewaAdapter.Pay | src/gateways/esewa.ts:16-45 | A `null` or `undefined` request fails reading `params.amount` and is rethrown as ESEWA_PAYMENT_ERROR with the TypeError's message. It fails in no other case. Otherwise the result is success from 'esewa' and carries the nine-field eSewa form. amt and tAmt are the request amount. psc, pdc and txAmt are 0. pid is transactionId, or 'demo-tx'. scd is clientId and su is returnUrl. fu is failUrl, or returnUrl. For a numeric amount the total equals the sum of its parts. |
| EsewaAdapter.Verify | src/gateways/esewa.ts:47-63 | Success from 'esewa', with the request echoed. |
| EsewaAdapter.Refund | src/gateways/esewa.ts:65-81 | Success from 'esewa', with the request echoed. |
| KhaltiAdapter.New | src/gateways/khalti.ts:13-15 | `baseUrl` is the configured one, or 'https://khalti.com/api/v2'. |
| KhaltiAdapter.Refund | src/gateways/khalti.ts:79-82 | Refund always throws the typed KHALTI_REFUND_UNSUPPORTED error. |
| ConnectIpsAdapter.New | src/gateways/connectips.ts:12-14 | `baseUrl` is the configured one, or 'https://uat.connectips.com'. |
| ConnectIpsAdapter.Pay | src/gateways/connectips.ts:16-19 | Success from 'connectips', with the request unchanged as params. |
| ConnectIpsAdapter.Verify | src/gateways/connectips.ts:21-24 | Success from 'connectips', with the request echoed. |
| ConnectIpsAdapter.Refund | src/gateways/connectips.ts:26-29 | Success from 'connectips', with the request echoed. |
| ImePayAdapter.New | src/gateways/imepay.ts:12-14 | `baseUrl` is the configured one, or 'https://staging.imepay.com.np'. |
| ImePayAdapter.Pay | src/gateways/imepay.ts:16-19 | Success from 'imepay', with the request unchanged as params. |
| ImePayAdapter.Verify | src/gateways/imepay.ts:21-24 | Success from 'imepay', with the request echoed. |
| ImePayAdapter.Refund | src/gateways/imepay.ts:26-29 | Success from 'imepay', with the request echoed. |
| MobileBankingAdapter.New | src/gateways/mobilebanking.ts:12-14 | `baseUrl` is the configured one, or 'https://api.mobilebanking.com.np'. |
| MobileBankingAdapter.Pay | src/gateways/mobilebanking.ts:16-19 | Success from 'mobilebanking', with the request unchanged as params. |
| MobileBankingAdapter.Verify | src/gateways/mobilebanking.ts:21-24 | Success from 'mobilebanking', with the request echoed. |
| MobileBankingAdapter.Refund | src/gateways/mobilebanking.ts:26-29 | Success from 'mobilebanking', with the request echoed. |
| PaymentSdk.GatewayOf | src/index.ts:10-16 | The switch selects gateway g exactly when the key is the string value of `GatewayType` g. Any other value matches no case. |
| PaymentSdk.NotConfiguredCodesDistinct | src/index.ts:72-90 | Each gateway's NOT_CONFIGURED error has its own code. That code differs from the code of every validation error and from UNSUPPORTED_GATEWAY. |
| PaymentSdk.New | src/index.ts:37-53 | The adapter for a built-in key exists exactly when that config entry is truthy. It is built from that entry. |
| PaymentSdk.ValidatePayParams | src/index.ts:56-70 | Validation returns the error of the first failing check, in this order: non-object, falsy gateway, amount that is not a positive number, falsy currency, falsy returnUrl. It passes exactly when all five checks hold. |
| PaymentSdk.Normalize | src/index.ts:91-94 | A result passes through. A `PaymentError` is rethrown as is. Any other error becomes INTERNAL_ERROR carrying its message, or 'Unknown error' when the message is empty. |
| PaymentSdk.Run | src/index.ts:71-94 | Nullish params fail inside the try block as INTERNAL_ERROR. An unknown key gives UNSUPPORTED_GATEWAY. A known but unconfigured key gives that gateway's NOT_CONFIGURED error. Otherwise the adapter's normalised outcome is returned. |
| PaymentSdk.Pay | src/index.ts:55-95 | A request failing validation is rejected with a validation error and reaches no adapter. A valid one goes through the shared dispatch. |
| PaymentSdk.Verify | src/index.ts:97-122 | No validation. Any request naming a configured non-Khalti gateway succeeds with the request echoed. Nullish params give INTERNAL_ERROR. |
| PaymentSdk.Refund | src/index.ts:124-149 | No validation. A configured non-Khalti gateway echoes the request. Khalti's typed refund error passes through unchanged. |
| PaymentSdk.AddTransaction | src/index.ts:152-154 | The SDK method appends the record to the store. |
| PaymentSdk.UpdateTransaction | src/index.ts:155-157 | The SDK method merges into the first matching record only. An unknown id leaves the store unchanged. |
| PaymentSdk.GetTransaction | src/index.ts:158-160 | The SDK method returns the first record with the id, or nothing when no record has it. |
| PaymentSdk.ListTransactions | src/index.ts:161-163 | The SDK method returns the store's records, oldest first. |
| PaymentSdkProperties.ValidationPrecedesDispatch | src/index.ts:55-71 | An invalid pay request gets the same validation error whatever adapters exist and whatever Khalti would answer. |
| PaymentSdkProperties.MissingGatewayBeforeBadAmount | src/index.ts:59-64 | A request with no gateway and amount 0 is MISSING_GATEWAY, not INVALID_AMOUNT. |
| PaymentSdkProperties.NonPositiveAmountRejected | src/index.ts:62-64 | A zero or negative amount is INVALID_AMOUNT for every gateway key, configured or not. |
| PaymentSdkProperties.UnconfiguredGatewayRejected | src/index.ts:72-87 | A known, unconfigured key fails with that gateway's own NOT_CONFIGURED error. This holds for pay, verify and refund. |
| PaymentSdkProperties.UnknownGatewayRejected | src/index.ts:88-89 | A key outside the five `GatewayType` values fails with UNSUPPORTED_GATEWAY. This holds for pay, verify and refund. |
| PaymentSdkProperties.AdapterResultUnchanged | src/index.ts:72-87 | When the adapter returns a result, the SDK returns exactly that result. |
| PaymentSdkProperties.AdapterErrorsNormalised | src/index.ts:91-94 | An adapter's `PaymentError` reaches the caller unchanged. Any other error reaches it as INTERNAL_ERROR with its message, or 'Unknown error'. |
| PaymentSdkProperties.VerifyAndRefundDoNotValidate | src/index.ts:97-149 | With eSewa configured, a request carrying only `gateway: 'esewa'` is accepted by verify and refund. pay rejects it as INVALID_AMOUNT. |
| PaymentSdkProperties.NullishVerifyIsInternalError | src/index.ts:97-122 | verify(null) and refund(undefined) fail while reading `params.gateway`. They surface as INTERNAL_ERROR with a non-empty message. |
| PaymentSdkProperties.MockGatewaysEcho | src/index.ts:37-53 | An SDK built with a ConnectIPS, IME Pay or Mobile Banking entry answers each call that reaches dispatch with success, the gateway key and the request echoed. |
| PaymentSdkProperties.EsewaPayEndToEnd | src/index.ts:73-75 | A valid eSewa payment yields a form whose totals add up. Its amount is the positive request amount, su and fu are truthy, and scd is the configured clientId. |
| PaymentSdkProperties.PayOutcomesWithoutKhalti | src/index.ts:55-95 | Without Khalti in the path, pay returns a success result from the requested gateway or one of the SDK's own typed errors. |
| PaymentSdkProperties.BuiltInAdaptersConform | src/types/gateway.ts:77-102 | All five built-in adapters provide pay, verify and refund. None provides subscribe, createInvoice or wallet. |
| TransactionStore.FindFirst | src/utils/transactionStore.ts:23-25 | Lookup returns the index of the first record with the id. It returns nothing exactly when no record has the id. |
| TransactionStore.Merge | src/utils/transactionStore.ts:18-19 | For each of gateway, status, params, message, transactionId and createdAt: the field is the update's value when the update supplies one, else the record's. `updatedAt` becomes `now` whatever the update said. |
| TransactionStore.AddTransaction | src/utils/transactionStore.ts:11-13 | The record goes at the end. The list grows by exactly one and the earlier records stay as they were. |
| TransactionStore.UpdateTransaction | src/utils/transactionStore.ts:15-21 | Only the first matching record is merged and stamped. Every other record and the order are unchanged. An unknown id changes nothing. |
| TransactionStore.GetTransaction | src/utils/transactionStore.ts:23-25 | Returns the first record with the id, or nothing exactly when no record has it. |
| TransactionStore.AddThenGet | src/utils/transactionStore.ts:11-25 | After an add, a lookup returns the added record if its id was new. Otherwise it returns the earlier record with that id. |
| TransactionStore.DuplicatesRetained | src/utils/transactionStore.ts:11-13 | Adding a record whose id is already present keeps both. The count of that id grows by one. |
| TransactionStore.UpdateThenGet | src/utils/transactionStore.ts:15-25 | Take an update that leaves the id alone. A lookup after it returns the merged record, with the new status and `updatedAt == now`. |
| TransactionStore.NoRecordRemoved | src/utils/transactionStore.ts:9-29 | After any sequence of adds and updates, the ledger holds its former size plus one per add. |
| TransactionStore.AddsListInInsertionOrder | src/utils/transactionStore.ts:27-29 | After additions only, the list holds the earlier records, then the added ones in call order. On a fresh ledger it is exactly the added records. |
| EventBus.On | src/utils/eventBus.ts:12-15 | The handler is appended to the event's list, and the list is created if absent. No other event's list changes. |
| EventBus.Without | src/utils/eventBus.ts:22 | The filter removes every occurrence of the handler and introduces no new handler. |
| EventBus.WithoutCounts | src/utils/eventBus.ts:22 | Every other handler keeps its number of occurrences. The list shrinks by exactly the occurrences of the removed handler. |
| EventBus.WithoutAppend | src/utils/eventBus.ts:22 | The filter distributes over concatenation, so the survivors keep their relative order. |
| EventBus.Off | src/utils/eventBus.ts:20-23 | Every occurrence of the handler leaves the event's list. An event with no list is a no-op, and other events are untouched. |
| EventBus.Emit | src/utils/eventBus.ts:28-33 | Emit invokes exactly the event's handlers, in registration order, each with the emitted arguments. An event with no list invokes nothing. |
| EventBus.OnTwiceRunsTwice | src/utils/eventBus.ts:12-15 | A handler registered twice runs twice. |
| EventBus.OnThenOffRestores | src/utils/eventBus.ts:12-23 | Registering a fresh handler and then removing it restores the handlers `emit` runs. |
| EventBus.RegistrationOrder | src/utils/eventBus.ts:12-33 | After registering a sequence of handlers, `emit` runs the earlier handlers and then that sequence, in order. |
| EventBus.OffKeepsSurvivorOrder | src/utils/eventBus.ts:20-23 | Removing a handler keeps the handlers before and after it in their order. |
| EventBus.OnAsWritten | src/utils/eventBus.ts:7-15 | As written: `on` throws a TypeError exactly for an event name inherited from `Object.prototype` that has no own list. Otherwise it behaves as `On`. |
| EventBus.OffAsWritten | src/utils/eventBus.ts:20-23 | As written: `off` throws for the same names. Otherwise it behaves as `Off`. |
| EventBus.EmitAsWritten | src/utils/eventBus.ts:28-33 | As written, with native `for...of`: `emit` throws "not iterable" for the same names. Otherwise it runs the registered handlers. |
| EventBus.ConstructorEventThrows | src/utils/eventBus.ts:7-33 | Counterexample: on a fresh bus, on, off and emit for "constructor" all throw. The corrected `On` registers the handler. |
| EventBus.AsWrittenAgreesOffPrototype | src/utils/eventBus.ts:7-33 | As-written and corrected behaviour agree on every event name not inherited from `Object.prototype`. |
| Webhook.VerifySignature | src/handlers/webhook.ts:5-9 | The signature stub accepts every request. |
| Webhook.ResolveGateway | src/handlers/webhook.ts:12 | The key is the query parameter when truthy, otherwise the body's field. Reading the field of a missing body throws. |
| Webhook.ParseEvent | src/handlers/webhook.ts:22-40 | Exactly the five gateway keys parse, and their event is the body unchanged. |
| Webhook.Handle | src/handlers/webhook.ts:11-47 | A falsy key gives 400 'Missing gateway parameter'. 401 never occurs. The five keys give 200 `{received: true}` with the body as event. Any other key forwards an UNSUPPORTED_GATEWAY `PaymentError` with no direct response. |
| Webhook.WebhookGatewaysAreSdkGateways | src/handlers/webhook.ts:22-39 | The webhook acknowledges exactly the keys the SDK's `GatewayType` switch accepts. |
| Webhook.QueryTakesPrecedence | src/handlers/webhook.ts:12 | With a truthy query key, the body's `gateway` field does not affect the status, the reply body or the forwarded error. |
| Webhook.EsewaCallbackAcknowledged | src/handlers/webhook.ts:22-43 | `?gateway=esewa` is answered 200 `{received: true}` with the body as the event. |
| ValidatePayment.Validate | examples/express-server/middlewares/validatePayment.ts:6-15 | A falsy gateway, amount, currency or returnUrl gives 400 with the missing-fields message. This check comes first. Otherwise a non-number or non-positive amount gives 400 'Amount must be a positive number'. `next()` is called exactly when both checks pass. |
| ValidatePayment.AcceptedExactlyWhenPayAccepts | examples/express-server/middlewares/validatePayment.ts:7-14 | The middleware calls `next()` exactly for the bodies that pass all five `pay` checks. |
| ValidatePayment.FirstErrorDiffersFromPay | examples/express-server/middlewares/validatePayment.ts:8-13 | A body with zero amount and no currency gets the missing-fields message here. `pay` reports INVALID_AMOUNT for it. |
| ErrorHandler.Handle | examples/express-server/middlewares/errorHandler.ts:6-16 | An Error gets its truthy `status`, or else 500. Its body is `{error: message, or 'Internal Server Error' when empty; code: the truthy code, or undefined}`. A non-Error gets 500 `{error: 'Internal Server Error'}`. |
| ErrorHandler.PaymentErrorsAnswer500 | examples/express-server/middlewares/errorHandler.ts:9-11 | A `PaymentError` has no status, so it is answered 500 with its message and its non-empty code. |
| ErrorHandler.UnsupportedWebhookAnswer | examples/express-server/middlewares/errorHandler.ts:9-11 | `errorHandler`, applied to the error the webhook forwards for an unknown gateway, answers 500 `{error: 'Unsupported gateway in webhook', code: 'UNSUPPORTED_GATEWAY'}`. In the example server that error does not reach it (see Notes on the source). |

## Findings

| source | as written | input that shows it | evidently intended | confidence | as-written member | corrected member |
|---|---|---|---|---|---|---|
| src/utils/eventBus.ts:7-33 | The listener table is a plain `{}`, so `this.listeners[event]` is truthy for names inherited from `Object.prototype`. For those names `on` calls `.push` on a function, `off` calls `.filter` on one, and `emit` iterates one. `on` and `off` throw a TypeError whatever the compile target, and no own list can ever be created for such a name. `emit` throws "is not iterable" when `for...of` is native (an ES2015 or later target). Under ES5 downlevelling the loop indexes up to `.length`. It then runs zero times for `toString`, `toLocaleString`, `valueOf` and `__proto__`. For the other eight names, `constructor` among them, it throws calling `undefined`. | `eventBus.on('constructor', h)` on a fresh bus | Any event name can be registered, removed and emitted, as with a map (`Object.create(null)` or `Map`). | high (not executed) | EventBus.OnAsWritten | EventBus.On |

`EventBus.ConstructorEventThrows` exhibits the counterexample.
`EventBus.AsWrittenAgreesOffPrototype` shows that the two versions differ only on these names.
The rest of the model uses the corrected `On`, `Off` and `Handlers`.

## Notes on the source

Facts about the code that a reader of the SDK's documentation might not expect:

- There is no generic `GATEWAY_NOT_CONFIGURED` code. A known but unconfigured key fails with a per-gateway `<NAME>_NOT_CONFIGURED` code. An unknown key fails with `UNSUPPORTED_GATEWAY`.
- `verify` and `refund` validate nothing. Their only failures are lookup failures, normalised errors and adapter errors.
- The dispatcher emits no events. The event bus is standalone.
- There is no `registerProvider`, no `customProviders` and no `subscribe`/`createInvoice`/`wallet` dispatch. The registry is the five fixed optional fields.
- The example server registers `errorHandler` with `app.use` (examples/express-server/app.ts:10), but the function takes three parameters (errorHandler.ts:6). Express passes errors only to four-parameter middleware, so errors forwarded by the routes and the webhook never reach it. `ErrorHandler.Handle` models the function itself.
- `updateTransaction` stamps `updatedAt` with the current time. Nothing makes it strictly later than the previous value. The model takes `now` as an argument and promises only `updatedAt == now`.

## Left out

- Asynchrony: every `async` operation is a synchronous function, and a rejected promise is an `Err`.
- Floating point: numbers are `real`. `NaN` is its own value. Infinity and negative zero are not represented.
- Khalti's `pay` and `verify` are HTTP calls. They are an abstract `KhaltiBackend` argument, so the payload mapping and the paisa conversion are not modelled.
- The six `src/global-gateways` adapters wrap third-party SDKs and are never wired into `PaymentSDK`.
- Adapters that throw a non-Error value are not modelled. A thrown `null` or `undefined` would make the catch block's own `err.message` read throw. A thrown string or plain object would become INTERNAL_ERROR.
- Property reads cover plain objects only. Reads of `length` or indices on strings, arrays and functions, and inherited properties of config or request objects, are not modelled. The inherited listener names of the event bus are the exception.
- The TypeError messages use V8's wording. Other engines word them differently.
- TransactionStore.UpdateTransaction: the ledger holds record values, not object references. The model assumes each record was added as its own object. If the same object is added twice, the source's in-place update also shows in the other slot, and the model leaves that slot unchanged. A caller's later change to a record object it passed to `addTransaction` is not modelled either.
- PaymentSdk.UpdateTransaction: it delegates to the ledger and has the same limits on aliasing as `TransactionStore.UpdateTransaction`.
- `RecordUpdate`: an update field explicitly set to `undefined` is treated as absent, although `Object.assign` would copy it. Record values are immutable, so aliasing between the store and the objects that `getTransaction`/`listTransactions` return is not modelled.
- `TransactionStore.ListTransactions` and `EventBus.Handlers` have no contract of their own. `TransactionStore.AddsListInInsertionOrder`, `EventBus.RegistrationOrder` and `EventBus.Emit` state their behaviour.
- `PaymentSdk.Verify`: the contract covers the four deterministic adapters and nullish params. For Khalti, `PaymentSdk.Run` states the outcome in terms of the abstract backend.
- Handlers passed to `emit` are identities. Running them, and their exceptions propagating out of `emit`, are not modelled. `emit` returns the invocations it would make.
- `console.log` and `console.error` calls, the `mode` config field (never read) and Express request/response plumbing are not modelled. The JWT middleware, routes, controllers, services and demo scripts are also out.
- The `SubscriptionParams`, `InvoiceParams` and `WalletParams` types (src/types/gateway.ts:30-65) are not modelled: no adapter implements the optional operations that take them. Their result statuses are modelled.
- `src/types/legacy.ts` duplicates `PaymentError` and no core file uses it.

=== FILE: connectips.dfy ===
/**
 * The ConnectIPSGateway mock adapter (`src/gateways/connectips.ts`): every operation reports
 * success and echoes the request it was given.
 */
module ConnectIpsAdapter {
  import opened Wrappers
  import opened Js
  import opened PaymentTypes

  const GatewayName := "connectips"
  const DefaultBaseUrl := "https://uat.connectips.com"
  const PayMessage := "Payment initiated (mock)"
  const VerifyMessage := "Payment verified (mock)"
  const RefundMessage := "Refund processed (mock)"

  /** A `ConnectIPSGateway` instance: its configuration object and the resolved base URL. */
  datatype Gateway = Gateway(config: JsValue, baseUrl: JsValue)

  /** The constructor: the configured `baseUrl`, or the provider's default endpoint. */
  function New(config: JsValue): (g: Gateway)
    requires !Nullish(config)
    ensures g.config == config
    ensures Truthy(Prop(config, "baseUrl")) ==> g.baseUrl == Prop(config, "baseUrl")
    ensures !Truthy(Prop(config, "baseUrl")) ==> g.baseUrl == Str(DefaultBaseUrl)
    ensures Truthy(g.baseUrl)
  {
    Gateway(config, Or(Prop(config, "baseUrl"), Str(DefaultBaseUrl)))
  }

  /** `pay`: success, with the request unchanged as the result's params. */
  function Pay(g: Gateway, params: JsValue): (r: PaymentResult)
    ensures r.gateway == GatewayName && r.status == Success && r.params == params
    ensures r.message == Some(PayMessage)
  {
    EchoSuccess(GatewayName, params, PayMessage)
  }

  /** `verify`: success, echoing the request. */
  function Verify(g: Gateway, params: JsValue): (r: PaymentResult)
    ensures r.gateway == GatewayName && r.status == Success && r.params == params
    ensures r.message == Some(VerifyMessage)
  {
    EchoSuccess(GatewayName, params, VerifyMessage)
  }

  /** `refund`: success, echoing the request. */
  function Refund(g: Gateway, params: JsValue): (r: PaymentResult)
    ensures r.gateway == GatewayName && r.status == Success && r.params == params
    ensures r.message == Some(RefundMessage)
  {
    EchoSuccess(GatewayName, params, RefundMessage)
  }

  /** The class defines pay, verify and refund and none of the optional operations. */
  const Capabilities: set<Operation> := CoreOperations
}

=== FILE: error_handler.dfy ===
/**
 * The example server's error responder
 * (`examples/express-server/middlewares/errorHandler.ts`): the HTTP status
 * and JSON body sent for a value that reached it.
 */
module ErrorHandler {
  import opened Wrappers
  import opened Js
  import opened PaymentTypes
  import Webhook

  const InternalServerError := "Internal Server Error"

  /** The value handed to the responder: an Error with its `status` and `code` properties, or anything else. */
  datatype Caught =
    | ErrorInstance(message: string, status: JsValue, code: JsValue)
    | NotAnError(value: JsValue)

  /** `res.status(status).json(body)`. */
  datatype HttpReply = HttpReply(status: JsValue, body: JsValue)

  /**
   * `errorHandler`: an Error answers its truthy `status` (else 500) with
   * `{error: message || 'Internal Server Error', code: code || undefined}`;
   * any other value answers 500 `{error: 'Internal Server Error'}`.
   */
  function Handle(err: Caught): (r: HttpReply)
    ensures err.ErrorInstance? && Truthy(err.status) ==> r.status == err.status
    ensures !(err.ErrorInstance? && Truthy(err.status)) ==> r.status == Number(500.0)
    ensures Truthy(r.status)
    ensures r.body.Object? && "error" in r.body.fields && r.body.fields["error"].Str?
    ensures err.ErrorInstance? ==>
      && r.body.fields.Keys == {"error", "code"}
      && r.body.fields["error"] == Str(if err.message != "" then err.message else InternalServerError)
      && (Truthy(err.code) ==> r.body.fields["code"] == err.code)
      && (!Truthy(err.code) ==> r.body.fields["code"] == Undefined)
    ensures err.NotAnError? ==> r.body == Object(map["error" := Str(InternalServerError)])
  {
    match err
    case ErrorInstance(message, status, code) =>
      HttpReply(Or(status, Number(500.0)),
                Object(map["error" := Or(Str(message), Str(InternalServerError)), "code" := Or(code, Undefined)]))
    case NotAnError(_) =>
      HttpReply(Number(500.0), Object(map["error" := Str(InternalServerError)]))
  }

  /** A `PaymentError` as the responder sees it: no `status` property, and its `code`. */
  function FromPaymentError(e: PaymentError): Caught {
    ErrorInstance(e.message, Undefined, e.CodeValue())
  }

  /** Every `PaymentError` is answered 500, with its message and, when non-empty, its code. */
  lemma PaymentErrorsAnswer500(e: PaymentError)
    ensures Handle(FromPaymentError(e)).status == Number(500.0)
    ensures e.message != "" ==> Handle(FromPaymentError(e)).body.fields["error"] == Str(e.message)
    ensures e.code.Some? && e.code.value != "" ==> Handle(FromPaymentError(e)).body.fields["code"] == Str(e.code.value)
  {
  }

  /**
   * `errorHandler` applied to the error the webhook forwards for an unknown
   * gateway answers 500 with code UNSUPPORTED_GATEWAY. This composes the two
   * functions; whether the server's wiring delivers the error here is a
   * separate matter (the handler is registered with three parameters).
   */
  lemma UnsupportedWebhookAnswer(req: Webhook.WebhookRequest)
    requires Webhook.Handle(req).Forwarded?
    ensures Handle(FromPaymentError(Webhook.Handle(req).err)) ==
      HttpReply(Number(500.0), Object(map["error" := Str("Unsupported gateway in webhook"),
                                          "code" := Str("UNSUPPORTED_GATEWAY")]))
  {
  }
}

=== FILE: esewa.dfy ===
/**
 * The eSewa adapter (`src/gateways/esewa.ts`). Payment initiation builds the
 * eSewa form payload locally and reports success; verify and refund echo the
 * request. No network call is made: the only failure left is `pay` reading a
 * field of a `null` or `undefined` request, which its catch block turns into
 * an ESEWA_PAYMENT_ERROR. Verify and refund never read their request.
 */
module EsewaAdapter {
  import opened Wrappers
  import opened Js
  import opened PaymentTypes

  const GatewayName := "esewa"
  const DefaultBaseUrl := "https://uat.esewa.com.np"
  const PayMessage := "Payment initiated (mock)"
  const VerifyMessage := "Payment verified (mock)"
  const RefundMessage := "Refund processed (mock)"
  const DemoTransactionId := "demo-tx"
  const PaymentErrorCode := "ESEWA_PAYMENT_ERROR"
  const PaymentFailedMessage := "eSewa payment failed"

  /** The eSewa form fields the payload carries. */
  const PayloadKeys: set<string> := {"amt", "psc", "pdc", "txAmt", "tAmt", "pid", "scd", "su", "fu"}

  /** An `EsewaGateway` instance: its configuration object and the resolved base URL. */
  datatype EsewaGateway = EsewaGateway(config: JsValue, baseUrl: JsValue)

  /** The constructor: the configured `baseUrl`, or the eSewa test server when none is given. */
  function New(config: JsValue): (g: EsewaGateway)
    requires !Nullish(config)
    ensures g.config == config
    ensures Truthy(Prop(config, "baseUrl")) ==> g.baseUrl == Prop(config, "baseUrl")
    ensures !Truthy(Prop(config, "baseUrl")) ==> g.baseUrl == Str(DefaultBaseUrl)
    ensures Truthy(g.baseUrl)
  {
    EsewaGateway(config, Or(Prop(config, "baseUrl"), Str(DefaultBaseUrl)))
  }

  /** The eSewa payment form built from the request and the merchant code. */
  function Payload(g: EsewaGateway, params: JsValue): JsValue
    requires !Nullish(params) && !Nullish(g.config)
  {
    Object(map[
      "amt" := Prop(params, "amount"),
      "psc" := Number(0.0),
      "pdc" := Number(0.0),
      "txAmt" := Number(0.0),
      "tAmt" := Prop(params, "amount"),
      "pid" := Or(Prop(params, "transactionId"), Str(DemoTransactionId)),
      "scd" := Prop(g.config, "clientId"),
      "su" := Prop(params, "returnUrl"),
      "fu" := Or(Prop(params, "failUrl"), Prop(params, "returnUrl"))
    ])
  }

  /** The charge breakdown of a payload adds up: total = amount + service + delivery + tax. */
  predicate TotalsAgree(payload: JsValue) {
    && payload.Object?
    && PayloadKeys <= payload.fields.Keys
    && var f := payload.fields;
       f["amt"].Number? && f["psc"].Number? && f["pdc"].Number? && f["txAmt"].Number? && f["tAmt"].Number?
       && f["tAmt"].n == f["amt"].n + f["psc"].n + f["pdc"].n + f["txAmt"].n
  }

  /**
   * The catch block of `pay`: whatever Error was thrown is rethrown as an
   * ESEWA_PAYMENT_ERROR carrying its message, or 'eSewa payment failed' when
   * the message is empty.
   */
  function PayFailure(message: string): (e: PaymentError)
    ensures e.code == Some(PaymentErrorCode)
    ensures e.message != ""
    ensures message != "" ==> e.message == message
    ensures message == "" ==> e.message == PaymentFailedMessage
  {
    PaymentError(if message != "" then message else PaymentFailedMessage, Some(PaymentErrorCode))
  }

  /**
   * `pay`: success, with the eSewa payload (not the request) as the result's
   * params. A `null` or `undefined` request fails at its first field read,
   * `params.amount`, and reaches the caller as an ESEWA_PAYMENT_ERROR.
   */
  function Pay(g: EsewaGateway, params: JsValue): (r: Result<PaymentResult, Raised>)
    requires !Nullish(g.config)
    ensures r.Err? <==> Nullish(params)
    ensures Nullish(params) ==>
      r == Err(Typed(PaymentError(TypeErrorReading(params, "amount"), Some(PaymentErrorCode))))
    ensures !Nullish(params) ==>
      && r.Ok? && r.value.gateway == GatewayName && r.value.status == Success
      && r.value.message == Some(PayMessage)
      && r.value.params.Object? && r.value.params.fields.Keys == PayloadKeys
      && var f := r.value.params.fields;
      && f["amt"] == Prop(params, "amount") && f["tAmt"] == Prop(params, "amount")
      && f["psc"] == Number(0.0) && f["pdc"] == Number(0.0) && f["txAmt"] == Number(0.0)
      && (Truthy(Prop(params, "transactionId")) ==> f["pid"] == Prop(params, "transactionId"))
      && (!Truthy(Prop(params, "transactionId")) ==> f["pid"] == Str(DemoTransactionId))
      && f["scd"] == Prop(g.config, "clientId")
      && f["su"] == Prop(params, "returnUrl")
      && (Truthy(Prop(params, "failUrl")) ==> f["fu"] == Prop(params, "failUrl"))
      && (!Truthy(Prop(params, "failUrl")) ==> f["fu"] == Prop(params, "returnUrl"))
    ensures !Nullish(params) && Prop(params, "amount").Number? ==> TotalsAgree(r.value.params)
  {
    if Nullish(params) then Err(Typed(PayFailure(TypeErrorReading(params, "amount"))))
    else Ok(GatewayResult(GatewayName, Success, Payload(g, params), Some(PayMessage)))
  }

  /** `verify`: success, echoing the request. */
  function Verify(g: EsewaGateway, params: JsValue): (r: PaymentResult)
    ensures r.gateway == GatewayName && r.status == Success && r.params == params
    ensures r.message == Some(VerifyMessage)
  {
    EchoSuccess(GatewayName, params, VerifyMessage)
  }

  /** `refund`: success, echoing the request. */
  function Refund(g: EsewaGateway, params: JsValue): (r: PaymentResult)
    ensures r.gateway == GatewayName && r.status == Success && r.params == params
    ensures r.message == Some(RefundMessage)
  {
    EchoSuccess(GatewayName, params, RefundMessage)
  }

  /** The class defines pay, verify and refund and none of the optional operations. */
  const Capabilities: set<Operation> := CoreOperations
}

=== FILE: event_bus.dfy ===
/**
 * The in-process event bus (`src/utils/eventBus.ts`): per event name, the
 * list of registered handlers. Handlers are known by identity (a `Handler`
 * number stands for a function object under JavaScript's reference equality),
 * and `emit` answers the sequence of invocations it performs instead of
 * running them.
 */
module EventBus {
  import opened Wrappers

  /** A registered handler, known only by its identity. */
  type Handler = nat

  /** The `listeners` object: event name to handler list. */
  datatype Bus = Bus(listeners: map<string, seq<Handler>>)

  function Empty(): Bus {
    Bus(map[])
  }

  /** The handlers `emit` would run for `event`; none when no list exists. */
  function Handlers(bus: Bus, event: string): seq<Handler> {
    if event in bus.listeners then bus.listeners[event] else []
  }

  /** `on`: appends the handler to the event's list, creating the list when absent; no deduplication. */
  function On(bus: Bus, event: string, h: Handler): (b: Bus)
    ensures Handlers(b, event) == Handlers(bus, event) + [h]
    ensures b.listeners.Keys == bus.listeners.Keys + {event}
    ensures forall e :: e != event ==> Handlers(b, e) == Handlers(bus, e)
  {
    Bus(bus.listeners[event := Handlers(bus, event) + [h]])
  }

  /** `list.filter(x => x !== h)`: every occurrence of `h` removed, the rest kept in order. */
  function Without(hs: seq<Handler>, h: Handler): (r: seq<Handler>)
    ensures h !in r
    ensures forall x :: x in r ==> x in hs
  {
    if |hs| == 0 then []
    else (if hs[0] == h then [] else [hs[0]]) + Without(hs[1..], h)
  }

  /** The filter keeps every other handler as often as it occurred and drops exactly the occurrences of `h`. */
  lemma {:induction false} WithoutCounts(hs: seq<Handler>, h: Handler)
    ensures forall x :: x != h ==> multiset(Without(hs, h))[x] == multiset(hs)[x]
    ensures |Without(hs, h)| == |hs| - multiset(hs)[h]
  {
    if |hs| > 0 {
      assert hs == [hs[0]] + hs[1..];
      WithoutCounts(hs[1..], h);
    }
  }

  /** Filtering distributes over concatenation, so the survivors keep their relative order. */
  lemma {:induction false} WithoutAppend(a: seq<Handler>, b: seq<Handler>, h: Handler)
    ensures Without(a + b, h) == Without(a, h) + Without(b, h)
  {
    if |a| == 0 {
      assert a + b == b;
    } else {
      assert (a + b)[1..] == a[1..] + b;
      WithoutAppend(a[1..], b, h);
    }
  }

  /** A list without `h` is left as it is by the filter. */
  lemma {:induction false} WithoutAbsent(hs: seq<Handler>, h: Handler)
    requires h !in hs
    ensures Without(hs, h) == hs
  {
    if |hs| > 0 {
      WithoutAbsent(hs[1..], h);
    }
  }

  /**
   * `off`: removes every occurrence of the handler from the event's list and
   * keeps the rest in order; an event with no list is left alone.
   */
  function Off(bus: Bus, event: string, h: Handler): (b: Bus)
    ensures event !in bus.listeners ==> b == bus
    ensures event in bus.listeners ==> event in b.listeners && Handlers(b, event) == Without(Handlers(bus, event), h)
    ensures h !in Handlers(b, event)
    ensures b.listeners.Keys == bus.listeners.Keys
    ensures forall e :: e != event ==> Handlers(b, e) == Handlers(bus, e)
  {
    if event !in bus.listeners then bus
    else Bus(bus.listeners[event := Without(bus.listeners[event], h)])
  }

  /** One handler call made by `emit`: the handler and the arguments it was given. */
  datatype Invocation<A> = Invocation(handler: Handler, args: A)

  /**
   * `emit`: calls every handler registered for the event, in registration
   * order, each with the emitted arguments; nothing for an event with no list.
   */
  method Emit<A>(bus: Bus, event: string, args: A) returns (calls: seq<Invocation<A>>)
    ensures |calls| == |Handlers(bus, event)|
    ensures forall i :: 0 <= i < |calls| ==> calls[i] == Invocation(Handlers(bus, event)[i], args)
    ensures event !in bus.listeners ==> calls == []
  {
    calls := [];
    if event !in bus.listeners {
      return;
    }
    var hs := bus.listeners[event];
    var i := 0;
    while i < |hs|
      invariant 0 <= i <= |hs|
      invariant |calls| == i
      invariant forall k :: 0 <= k < i ==> calls[k] == Invocation(hs[k], args)
    {
      calls := calls + [Invocation(hs[i], args)];
      i := i + 1;
    }
  }

  /** Registering the same handler twice makes `emit` run it twice, after everything registered before. */
  lemma OnTwiceRunsTwice(bus: Bus, event: string, h: Handler)
    ensures Handlers(On(On(bus, event, h), event, h), event) == Handlers(bus, event) + [h, h]
    ensures multiset(Handlers(On(On(bus, event, h), event, h), event))[h] == multiset(Handlers(bus, event))[h] + 2
  {
    assert Handlers(bus, event) + [h] + [h] == Handlers(bus, event) + [h, h];
  }

  /** Registering a fresh handler and then removing it gives `emit` back its former handler list. */
  lemma OnThenOffRestores(bus: Bus, event: string, h: Handler)
    requires h !in Handlers(bus, event)
    ensures Handlers(Off(On(bus, event, h), event, h), event) == Handlers(bus, event)
  {
    WithoutAppend(Handlers(bus, event), [h], h);
    WithoutAbsent(Handlers(bus, event), h);
  }

  /** Registrations in a row, for one event. */
  function OnAll(bus: Bus, event: string, hs: seq<Handler>): Bus
    decreases |hs|
  {
    if |hs| == 0 then bus else OnAll(On(bus, event, hs[0]), event, hs[1..])
  }

  /** After registering `hs` in order, `emit` runs the earlier handlers and then `hs`, in registration order. */
  lemma {:induction false} RegistrationOrder(bus: Bus, event: string, hs: seq<Handler>)
    ensures Handlers(OnAll(bus, event, hs), event) == Handlers(bus, event) + hs
    decreases |hs|
  {
    if |hs| == 0 {
      assert Handlers(bus, event) + hs == Handlers(bus, event);
    } else {
      RegistrationOrder(On(bus, event, hs[0]), event, hs[1..]);
      assert Handlers(bus, event) + [hs[0]] + hs[1..] == Handlers(bus, event) + hs;
    }
  }

  lemma WithoutSingle(h: Handler)
    ensures Without([h], h) == []
  {
  }

  /** Filtering out the `h` between `a` and `b` leaves the survivors of `a`, then those of `b`. */
  lemma {:induction false} WithoutAround(a: seq<Handler>, b: seq<Handler>, h: Handler)
    ensures Without(a + [h] + b, h) == Without(a, h) + Without(b, h)
  {
    WithoutAppend(a + [h], b, h);
    WithoutAppend(a, [h], h);
    WithoutSingle(h);
  }

  /** Removing a handler keeps the handlers registered before and after it in their order. */
  lemma OffKeepsSurvivorOrder(bus: Bus, event: string, h: Handler, a: seq<Handler>, b: seq<Handler>)
    requires Handlers(bus, event) == a + [h] + b
    ensures Handlers(Off(bus, event, h), event) == Without(a, h) + Without(b, h)
  {
    WithoutAround(a, b, h);
  }

  // ---------------------------------------------------------------------------
  // The listener table as written: a plain `{}` object. Names inherited from
  // Object.prototype already read as truthy values there, so the "is there a
  // list?" test passes for them and the code then uses a function or the
  // prototype object as if it were an array.
  // ---------------------------------------------------------------------------

  /** Property names every plain object inherits from Object.prototype. */
  const InheritedNames: set<string> := {
    "constructor", "hasOwnProperty", "isPrototypeOf", "propertyIsEnumerable", "toLocaleString",
    "toString", "valueOf", "__proto__", "__defineGetter__", "__defineSetter__",
    "__lookupGetter__", "__lookupSetter__"}

  /** What `this.listeners[event]` reads on the plain object. */
  datatype Slot = OwnList(hs: seq<Handler>) | Inherited | Missing

  function SlotAsWritten(bus: Bus, event: string): Slot {
    if event in bus.listeners then OwnList(bus.listeners[event])
    else if event in InheritedNames then Inherited
    else Missing
  }

  /** The TypeError the three methods raise on an inherited slot. */
  datatype TypeError = TypeError(message: string)

  /** `on` as written: for an inherited name, `.push` is not a function of the inherited value. */
  function OnAsWritten(bus: Bus, event: string, h: Handler): (r: Result<Bus, TypeError>)
    ensures r.Err? <==> event !in bus.listeners && event in InheritedNames
    ensures r.Ok? ==> r.value == On(bus, event, h)
  {
    match SlotAsWritten(bus, event)
    case Inherited => Err(TypeError("this.listeners[event].push is not a function"))
    case _ => Ok(On(bus, event, h))
  }

  /** `off` as written: for an inherited name, `.filter` is not a function of the inherited value. */
  function OffAsWritten(bus: Bus, event: string, h: Handler): (r: Result<Bus, TypeError>)
    ensures r.Err? <==> event !in bus.listeners && event in InheritedNames
    ensures r.Ok? ==> r.value == Off(bus, event, h)
  {
    match SlotAsWritten(bus, event)
    case Inherited => Err(TypeError("this.listeners[event].filter is not a function"))
    case _ => Ok(Off(bus, event, h))
  }

  /**
   * `emit` as written, compiled with native `for...of` (an ES2015 or later
   * target): for an inherited name the loop finds nothing iterable. An ES5
   * downlevelled loop indexes up to `.length`. It runs zero times for
   * `toString`, `toLocaleString`, `valueOf` and `__proto__`. For the other
   * eight names it throws calling `undefined`.
   */
  function EmitAsWritten(bus: Bus, event: string): (r: Result<seq<Handler>, TypeError>)
    ensures r.Err? <==> event !in bus.listeners && event in InheritedNames
    ensures r.Ok? ==> r.value == Handlers(bus, event)
  {
    match SlotAsWritten(bus, event)
    case OwnList(hs) => Ok(hs)
    case Inherited => Err(TypeError("this.listeners[event] is not iterable"))
    case Missing => Ok([])
  }

  /**
   * The counterexample: on a fresh bus, registering a handler for the event
   * "constructor" throws, and since no own list for that name can ever be
   * created, `emit("constructor")` throws too; the corrected `On` registers it.
   */
  lemma ConstructorEventThrows(h: Handler)
    ensures OnAsWritten(Empty(), "constructor", h).Err?
    ensures OffAsWritten(Empty(), "constructor", h).Err?
    ensures EmitAsWritten(Empty(), "constructor").Err?
    ensures Handlers(On(Empty(), "constructor", h), "constructor") == [h]
  {
  }

  /** As written and corrected agree on every event name not inherited from Object.prototype. */
  lemma AsWrittenAgreesOffPrototype(bus: Bus, event: string, h: Handler)
    requires event !in InheritedNames
    ensures OnAsWritten(bus, event, h) == Ok(On(bus, event, h))
    ensures OffAsWritten(bus, event, h) == Ok(Off(bus, event, h))
    ensures EmitAsWritten(bus, event) == Ok(Handlers(bus, event))
  {
  }
}

=== FILE: imepay.dfy ===
/**
 * The IMEPayGateway mock adapter (`src/gateways/imepay.ts`): every operation reports
 * success and echoes the request it was given.
 */
module ImePayAdapter {
  import opened Wrappers
  import opened Js
  import opened PaymentTypes

  const GatewayName := "imepay"
  const DefaultBaseUrl := "https://staging.imepay.com.np"
  const PayMessage := "Payment initiated (mock)"
  const VerifyMessage := "Payment verified (mock)"
  const RefundMessage := "Refund processed (mock)"

  /** A `IMEPayGateway` instance: its configuration object and the resolved base URL. */
  datatype Gateway = Gateway(config: JsValue, baseUrl: JsValue)

  /** The constructor: the configured `baseUrl`, or the provider's default endpoint. */
  function New(config: JsValue): (g: Gateway)
    requires !Nullish(config)
    ensures g.config == config
    ensures Truthy(Prop(config, "baseUrl")) ==> g.baseUrl == Prop(config, "baseUrl")
    ensures !Truthy(Prop(config, "baseUrl")) ==> g.baseUrl == Str(DefaultBaseUrl)
    ensures Truthy(g.baseUrl)
  {
    Gateway(config, Or(Prop(config, "baseUrl"), Str(DefaultBaseUrl)))
  }

  /** `pay`: success, with the request unchanged as the result's params. */
  function Pay(g: Gateway, params: JsValue): (r: PaymentResult)
    ensures r.gateway == GatewayName && r.status == Success && r.params == params
    ensures r.message == Some(PayMessage)
  {
    EchoSuccess(GatewayName, params, PayMessage)
  }

  /** `verify`: success, echoing the request. */
  function Verify(g: Gateway, params: JsValue): (r: PaymentResult)
    ensures r.gateway == GatewayName && r.status == Success && r.params == params
    ensures r.message == Some(VerifyMessage)
  {
    EchoSuccess(GatewayName, params, VerifyMessage)
  }

  /** `refund`: success, echoing the request. */
  function Refund(g: Gateway, params: JsValue): (r: PaymentResult)
    ensures r.gateway == GatewayName && r.status == Success && r.params == params
    ensures r.message == Some(RefundMessage)
  {
    EchoSuccess(GatewayName, params, RefundMessage)
  }

  /** The class defines pay, verify and refund and none of the optional operations. */
  const Capabilities: set<Operation> := CoreOperations
}

=== FILE: js.dfy ===
/**
 * The slice of JavaScript's value domain that the SDK's checks observe:
 * truthiness, `typeof`, property reads and the `||` operator. Every
 * `[key: string]: any` bag and every opaque `params` payload of the source
 * is a `JsValue`.
 */
module Js {

  datatype JsValue =
    | Undefined
    | Null
    | Bool(b: bool)
    | Number(n: real)                      // a finite number
    | NaN
    | Str(s: string)
    | Array(elems: seq<JsValue>)
    | Object(fields: map<string, JsValue>) // a plain object: its own properties
    | Function(id: nat)                    // a function, known only by identity

  /** The answers of `typeof` for the values above. */
  datatype TypeTag = UndefinedType | ObjectType | BooleanType | NumberType | StringType | FunctionType

  function TypeOf(v: JsValue): TypeTag {
    match v
    case Undefined => UndefinedType
    case Null => ObjectType
    case Bool(_) => BooleanType
    case Number(_) => NumberType
    case NaN => NumberType
    case Str(_) => StringType
    case Array(_) => ObjectType
    case Object(_) => ObjectType
    case Function(_) => FunctionType
  }

  /** JavaScript truthiness: `!v` is `!Truthy(v)`. */
  predicate Truthy(v: JsValue) {
    match v
    case Undefined => false
    case Null => false
    case Bool(b) => b
    case Number(n) => n != 0.0
    case NaN => false
    case Str(s) => s != ""
    case _ => true
  }

  /** `a || b`: the left operand when it is truthy, else the right one. */
  function Or(a: JsValue, b: JsValue): JsValue {
    if Truthy(a) then a else b
  }

  /** Reading a property of these two values throws a TypeError. */
  predicate Nullish(v: JsValue) {
    v.Undefined? || v.Null?
  }

  /** Looks `key` up in a property bag; an absent key reads as `undefined`. */
  function Field(fields: map<string, JsValue>, key: string): JsValue {
    if key in fields then fields[key] else Undefined
  }

  /**
   * `v[key]` for the named, non-numeric keys this code reads (`gateway`,
   * `amount`, `baseUrl`, ...). Only plain objects carry such properties.
   */
  function Prop(v: JsValue, key: string): JsValue
    requires !Nullish(v)
  {
    if v.Object? then Field(v.fields, key) else Undefined
  }

  /** The message of the TypeError raised by reading `key` of a nullish value (V8 wording). */
  function TypeErrorReading(v: JsValue, key: string): string
    requires Nullish(v)
  {
    "Cannot read properties of " + (if v.Null? then "null" else "undefined") + " (reading '" + key + "')"
  }
}

=== FILE: khalti.dfy ===
/**
 * The Khalti adapter (`src/gateways/khalti.ts`). Its pay and verify are HTTP
 * calls to Khalti's API and are not modelled: a `KhaltiBackend` stands for
 * them, answering a result or a thrown error. Its refund is local: Khalti
 * has no public refund API, so it always throws.
 */
module KhaltiAdapter {
  import opened Wrappers
  import opened Js
  import opened PaymentTypes

  const DefaultBaseUrl := "https://khalti.com/api/v2"
  const RefundUnsupportedCode := "KHALTI_REFUND_UNSUPPORTED"
  const RefundUnsupported := PaymentError("Khalti refund is not supported via public API", Some(RefundUnsupportedCode))

  /** A `KhaltiGateway` instance: its configuration object and the resolved base URL. */
  datatype KhaltiGateway = KhaltiGateway(config: JsValue, baseUrl: JsValue)

  /** What Khalti's pay and verify answer for an adapter instance and a request. */
  datatype KhaltiBackend = KhaltiBackend(
    pay: (KhaltiGateway, JsValue) -> Result<PaymentResult, Raised>,
    verify: (KhaltiGateway, JsValue) -> Result<PaymentResult, Raised>)

  /** The constructor: the configured `baseUrl`, or Khalti's production API. */
  function New(config: JsValue): (g: KhaltiGateway)
    requires !Nullish(config)
    ensures g.config == config
    ensures Truthy(Prop(config, "baseUrl")) ==> g.baseUrl == Prop(config, "baseUrl")
    ensures !Truthy(Prop(config, "baseUrl")) ==> g.baseUrl == Str(DefaultBaseUrl)
    ensures Truthy(g.baseUrl)
  {
    KhaltiGateway(config, Or(Prop(config, "baseUrl"), Str(DefaultBaseUrl)))
  }

  function Pay(g: KhaltiGateway, backend: KhaltiBackend, params: JsValue): Result<PaymentResult, Raised> {
    backend.pay(g, params)
  }

  function Verify(g: KhaltiGateway, backend: KhaltiBackend, params: JsValue): Result<PaymentResult, Raised> {
    backend.verify(g, params)
  }

  /** `refund` always throws the typed KHALTI_REFUND_UNSUPPORTED error, whatever the request. */
  function Refund(g: KhaltiGateway, params: JsValue): (r: Result<PaymentResult, Raised>)
    ensures r.Err? && r.error.Typed? && r.error.err.code == Some(RefundUnsupportedCode)
  {
    Err(Typed(RefundUnsupported))
  }

  /** The class defines pay, verify and refund and none of the optional operations. */
  const Capabilities: set<Operation> := CoreOperations
}

=== FILE: mobilebanking.dfy ===
/**
 * The MobileBankingGateway mock adapter (`src/gateways/mobilebanking.ts`): every operation reports
 * success and echoes the request it was given.
 */
module MobileBankingAdapter {
  import opened Wrappers
  import opened Js
  import opened PaymentTypes

  const GatewayName := "mobilebanking"
  const DefaultBaseUrl := "https://api.mobilebanking.com.np"
  const PayMessage := "Payment initiated (mock)"
  const VerifyMessage := "Payment verified (mock)"
  const RefundMessage := "Refund processed (mock)"

  /** A `MobileBankingGateway` instance: its configuration object and the resolved base URL. */
  datatype Gateway = Gateway(config: JsValue, baseUrl: JsValue)

  /** The constructor: the configured `baseUrl`, or the provider's default endpoint. */
  function New(config: JsValue): (g: Gateway)
    requires !Nullish(config)
    ensures g.config == config
    ensures Truthy(Prop(config, "baseUrl")) ==> g.baseUrl == Prop(config, "baseUrl")
    ensures !Truthy(Prop(config, "baseUrl")) ==> g.baseUrl == Str(DefaultBaseUrl)
    ensures Truthy(g.baseUrl)
  {
    Gateway(config, Or(Prop(config, "baseUrl"), Str(DefaultBaseUrl)))
  }

  /** `pay`: success, with the request unchanged as the result's params. */
  function Pay(g: Gateway, params: JsValue): (r: PaymentResult)
    ensures r.gateway == GatewayName && r.status == Success && r.params == params
    ensures r.message == Some(PayMessage)
  {
    EchoSuccess(GatewayName, params, PayMessage)
  }

  /** `verify`: success, echoing the request. */
  function Verify(g: Gateway, params: JsValue): (r: PaymentResult)
    ensures r.gateway == GatewayName && r.status == Success && r.params == params
    ensures r.message == Some(VerifyMessage)
  {
    EchoSuccess(GatewayName, params, VerifyMessage)
  }

  /** `refund`: success, echoing the request. */
  function Refund(g: Gateway, params: JsValue): (r: PaymentResult)
    ensures r.gateway == GatewayName && r.status == Success && r.params == params
    ensures r.message == Some(RefundMessage)
  {
    EchoSuccess(GatewayName, params, RefundMessage)
  }

  /** The class defines pay, verify and refund and none of the optional operations. */
  const Capabilities: set<Operation> := CoreOperations
}

=== FILE: payment_sdk.dfy ===
/**
 * The dispatcher `PaymentSDK` (`src/index.ts`): which built-in adapters exist,
 * the validation chain of `pay`, the closed switch over the five gateway keys,
 * the normalisation of thrown errors, and the ledger methods that forward to
 * the transaction store.
 */
module PaymentSdk {
  import opened Wrappers
  import opened Js
  import opened PaymentTypes
  import EsewaAdapter
  import KhaltiAdapter
  import ConnectIpsAdapter
  import ImePayAdapter
  import MobileBankingAdapter
  import TransactionStore

  // ---------------------------------------------------------------------------
  // Error codes raised by the dispatcher itself.
  // ---------------------------------------------------------------------------

  const InvalidParamsCode := "INVALID_PARAMS"
  const MissingGatewayCode := "MISSING_GATEWAY"
  const InvalidAmountCode := "INVALID_AMOUNT"
  const MissingCurrencyCode := "MISSING_CURRENCY"
  const MissingReturnUrlCode := "MISSING_RETURN_URL"
  const UnsupportedGatewayCode := "UNSUPPORTED_GATEWAY"
  const InternalErrorCode := "INTERNAL_ERROR"
  const UnknownErrorMessage := "Unknown error"

  const InvalidParams := PaymentError("Invalid payment parameters", Some(InvalidParamsCode))
  const MissingGateway := PaymentError("Missing gateway in payment parameters", Some(MissingGatewayCode))
  const InvalidAmount := PaymentError("Invalid or missing amount", Some(InvalidAmountCode))
  const MissingCurrency := PaymentError("Missing currency", Some(MissingCurrencyCode))
  const MissingReturnUrl := PaymentError("Missing returnUrl", Some(MissingReturnUrlCode))
  const UnsupportedGateway := PaymentError("Unsupported gateway", Some(UnsupportedGatewayCode))

  /** The five errors of `pay`'s validation chain. */
  const ValidationErrors: set<PaymentError> := {InvalidParams, MissingGateway, InvalidAmount, MissingCurrency, MissingReturnUrl}

  // ---------------------------------------------------------------------------
  // Gateway keys.
  // ---------------------------------------------------------------------------

  /** `GatewayType`: the five built-in gateways, the only keys the switch knows. */
  datatype GatewayType = Esewa | Khalti | ConnectIps | ImePay | MobileBanking {
    /** The enum's string value, which is also the config entry's name. */
    function Key(): string {
      match this
      case Esewa => "esewa"
      case Khalti => "khalti"
      case ConnectIps => "connectips"
      case ImePay => "imepay"
      case MobileBanking => "mobilebanking"
    }

    /** The error raised when the gateway is known but was not configured. */
    function NotConfigured(): PaymentError {
      match this
      case Esewa => PaymentError("eSewa not configured", Some("ESEWA_NOT_CONFIGURED"))
      case Khalti => PaymentError("Khalti not configured", Some("KHALTI_NOT_CONFIGURED"))
      case ConnectIps => PaymentError("ConnectIPS not configured", Some("CONNECTIPS_NOT_CONFIGURED"))
      case ImePay => PaymentError("IME Pay not configured", Some("IMEPAY_NOT_CONFIGURED"))
      case MobileBanking => PaymentError("Mobile Banking not configured", Some("MOBILEBANKING_NOT_CONFIGURED"))
    }
  }

  /** The `switch (params.gateway)`: strict equality against the five enum strings. */
  function GatewayOf(v: JsValue): (r: Option<GatewayType>)
    ensures forall g: GatewayType :: r == Some(g) <==> v == Str(g.Key())
  {
    if v == Str(Esewa.Key()) then Some(Esewa)
    else if v == Str(Khalti.Key()) then Some(Khalti)
    else if v == Str(ConnectIps.Key()) then Some(ConnectIps)
    else if v == Str(ImePay.Key()) then Some(ImePay)
    else if v == Str(MobileBanking.Key()) then Some(MobileBanking)
    else None
  }

  /** Each gateway's not-configured error carries its own code, distinct from every other gateway's. */
  lemma NotConfiguredCodesDistinct(g: GatewayType, h: GatewayType)
    ensures g.NotConfigured().code.Some?
    ensures g != h ==> g.NotConfigured().code != h.NotConfigured().code
    ensures forall e | e in ValidationErrors :: g.NotConfigured().code != e.code
    ensures g.NotConfigured().code != UnsupportedGateway.code
  {
  }

  // ---------------------------------------------------------------------------
  // Construction.
  // ---------------------------------------------------------------------------

  datatype Mode = Sandbox | Production

  /** `PaymentSDKConfig`: the mode and the `gateways` bag of per-gateway configs. */
  datatype SdkConfig = SdkConfig(mode: Mode, gateways: map<string, JsValue>)

  /** `config.gateways[key]` for a built-in gateway. */
  function ConfigEntry(config: SdkConfig, g: GatewayType): JsValue {
    Field(config.gateways, g.Key())
  }

  /** A `PaymentSDK` instance: the optional private adapter of each built-in gateway. */
  datatype Sdk = Sdk(
    config: SdkConfig,
    esewa: Option<EsewaAdapter.EsewaGateway>,
    khalti: Option<KhaltiAdapter.KhaltiGateway>,
    connectips: Option<ConnectIpsAdapter.Gateway>,
    imepay: Option<ImePayAdapter.Gateway>,
    mobilebanking: Option<MobileBankingAdapter.Gateway>)
  {
    /** Whether the private field for gateway `g` holds an adapter. */
    predicate Configured(g: GatewayType) {
      match g
      case Esewa => esewa.Some?
      case Khalti => khalti.Some?
      case ConnectIps => connectips.Some?
      case ImePay => imepay.Some?
      case MobileBanking => mobilebanking.Some?
    }

    /** Each adapter present was built from the config entry of its own key. */
    ghost predicate BuiltFrom(c: SdkConfig) {
      && (esewa.Some? ==> !Nullish(ConfigEntry(c, Esewa)) && esewa.value == EsewaAdapter.New(ConfigEntry(c, Esewa)))
      && (khalti.Some? ==> !Nullish(ConfigEntry(c, Khalti)) && khalti.value == KhaltiAdapter.New(ConfigEntry(c, Khalti)))
      && (connectips.Some? ==> !Nullish(ConfigEntry(c, ConnectIps))
                               && connectips.value == ConnectIpsAdapter.New(ConfigEntry(c, ConnectIps)))
      && (imepay.Some? ==> !Nullish(ConfigEntry(c, ImePay)) && imepay.value == ImePayAdapter.New(ConfigEntry(c, ImePay)))
      && (mobilebanking.Some? ==> !Nullish(ConfigEntry(c, MobileBanking))
                                  && mobilebanking.value == MobileBankingAdapter.New(ConfigEntry(c, MobileBanking)))
    }
  }

  /**
   * The constructor: an adapter exists for a built-in key exactly when the
   * config entry of that key is truthy, and it is built from that entry.
   */
  function New(config: SdkConfig): (sdk: Sdk)
    ensures forall g: GatewayType :: sdk.Configured(g) <==> Truthy(ConfigEntry(config, g))
    ensures sdk.BuiltFrom(config)
    ensures sdk.config == config
    ensures Wellformed(sdk)
  {
    var e := ConfigEntry(config, Esewa);
    var k := ConfigEntry(config, Khalti);
    var c := ConfigEntry(config, ConnectIps);
    var i := ConfigEntry(config, ImePay);
    var m := ConfigEntry(config, MobileBanking);
    Sdk(config,
        if Truthy(e) then Some(EsewaAdapter.New(e)) else None,
        if Truthy(k) then Some(KhaltiAdapter.New(k)) else None,
        if Truthy(c) then Some(ConnectIpsAdapter.New(c)) else None,
        if Truthy(i) then Some(ImePayAdapter.New(i)) else None,
        if Truthy(m) then Some(MobileBankingAdapter.New(m)) else None)
  }

  // ---------------------------------------------------------------------------
  // Validation of `pay`.
  // ---------------------------------------------------------------------------

  /** `!params || typeof params !== 'object'` fails for this value. */
  predicate IsParamsObject(params: JsValue) {
    Truthy(params) && TypeOf(params) == ObjectType
  }

  /** The amount test: truthy, of type number and strictly positive. */
  predicate IsPositiveAmount(amount: JsValue) {
    Truthy(amount) && TypeOf(amount) == NumberType && amount.Number? && amount.n > 0.0
  }

  /** Every check of the chain holds. */
  predicate ValidPayParams(params: JsValue) {
    && IsParamsObject(params)
    && Truthy(Prop(params, "gateway"))
    && IsPositiveAmount(Prop(params, "amount"))
    && Truthy(Prop(params, "currency"))
    && Truthy(Prop(params, "returnUrl"))
  }

  /**
   * The validation chain of `pay`: the error of the first check that fails,
   * in the order object, gateway, amount, currency, returnUrl.
   */
  function ValidatePayParams(params: JsValue): (r: Option<PaymentError>)
    ensures r.None? <==> ValidPayParams(params)
    ensures r == Some(InvalidParams) <==> !IsParamsObject(params)
    ensures r == Some(MissingGateway) <==> IsParamsObject(params) && !Truthy(Prop(params, "gateway"))
    ensures r == Some(InvalidAmount) <==>
      IsParamsObject(params) && Truthy(Prop(params, "gateway")) && !IsPositiveAmount(Prop(params, "amount"))
    ensures r == Some(MissingCurrency) <==>
      IsParamsObject(params) && Truthy(Prop(params, "gateway")) && IsPositiveAmount(Prop(params, "amount"))
      && !Truthy(Prop(params, "currency"))
    ensures r == Some(MissingReturnUrl) <==>
      IsParamsObject(params) && Truthy(Prop(params, "gateway")) && IsPositiveAmount(Prop(params, "amount"))
      && Truthy(Prop(params, "currency")) && !Truthy(Prop(params, "returnUrl"))
    ensures r.Some? ==> r.value in ValidationErrors
  {
    if !IsParamsObject(params) then Some(InvalidParams)
    else if !Truthy(Prop(params, "gateway")) then Some(MissingGateway)
    else if !IsPositiveAmount(Prop(params, "amount")) then Some(InvalidAmount)
    else if !Truthy(Prop(params, "currency")) then Some(MissingCurrency)
    else if !Truthy(Prop(params, "returnUrl")) then Some(MissingReturnUrl)
    else None
  }

  // ---------------------------------------------------------------------------
  // Dispatch and error normalisation.
  // ---------------------------------------------------------------------------

  /** The call `this.<gateway>.<op>(params)` on a configured adapter. */
  function Invoke(sdk: Sdk, g: GatewayType, op: Operation, params: JsValue, khalti: KhaltiAdapter.KhaltiBackend)
    : Result<PaymentResult, Raised>
    requires sdk.Configured(g) && op.Mandatory() && !Nullish(params)
    requires g == Esewa ==> !Nullish(sdk.esewa.value.config)
  {
    match g
    case Esewa =>
      var a := sdk.esewa.value;
      if op == PayOp then EsewaAdapter.Pay(a, params)
      else Ok(if op == VerifyOp then EsewaAdapter.Verify(a, params) else EsewaAdapter.Refund(a, params))
    case Khalti =>
      var a := sdk.khalti.value;
      if op == PayOp then KhaltiAdapter.Pay(a, khalti, params)
      else if op == VerifyOp then KhaltiAdapter.Verify(a, khalti, params)
      else KhaltiAdapter.Refund(a, params)
    case ConnectIps =>
      var a := sdk.connectips.value;
      Ok(if op == PayOp then ConnectIpsAdapter.Pay(a, params)
         else if op == VerifyOp then ConnectIpsAdapter.Verify(a, params)
         else ConnectIpsAdapter.Refund(a, params))
    case ImePay =>
      var a := sdk.imepay.value;
      Ok(if op == PayOp then ImePayAdapter.Pay(a, params)
         else if op == VerifyOp then ImePayAdapter.Verify(a, params)
         else ImePayAdapter.Refund(a, params))
    case MobileBanking =>
      var a := sdk.mobilebanking.value;
      Ok(if op == PayOp then MobileBankingAdapter.Pay(a, params)
         else if op == VerifyOp then MobileBankingAdapter.Verify(a, params)
         else MobileBankingAdapter.Refund(a, params))
  }

  /** The message a deterministic adapter (any but Khalti) attaches to its result of `op`. */
  function MockMessage(g: GatewayType, op: Operation): string
    requires g != Khalti && op.Mandatory()
  {
    match g
    case Esewa =>
      if op == PayOp then EsewaAdapter.PayMessage
      else if op == VerifyOp then EsewaAdapter.VerifyMessage else EsewaAdapter.RefundMessage
    case ConnectIps =>
      if op == PayOp then ConnectIpsAdapter.PayMessage
      else if op == VerifyOp then ConnectIpsAdapter.VerifyMessage else ConnectIpsAdapter.RefundMessage
    case ImePay =>
      if op == PayOp then ImePayAdapter.PayMessage
      else if op == VerifyOp then ImePayAdapter.VerifyMessage else ImePayAdapter.RefundMessage
    case MobileBanking =>
      if op == PayOp then MobileBankingAdapter.PayMessage
      else if op == VerifyOp then MobileBankingAdapter.VerifyMessage else MobileBankingAdapter.RefundMessage
  }

  /** The catch block: a `PaymentError` is rethrown as is, anything else becomes INTERNAL_ERROR. */
  function Normalize(r: Result<PaymentResult, Raised>): (n: Result<PaymentResult, PaymentError>)
    ensures r.Ok? <==> n.Ok?
    ensures r.Ok? ==> n.value == r.value
    ensures r.Err? && r.error.Typed? ==> n.Err? && n.error == r.error.err
    ensures r.Err? && r.error.Untyped? ==>
      && n.Err? && n.error.code == Some(InternalErrorCode)
      && n.error.message == (if r.error.message != "" then r.error.message else UnknownErrorMessage)
  {
    match r
    case Ok(res) => Ok(res)
    case Err(Typed(e)) => Err(e)
    case Err(Untyped(m)) => Err(PaymentError(if m != "" then m else UnknownErrorMessage, Some(InternalErrorCode)))
  }

  /** The SDK's well-formedness: the eSewa adapter's config can be read (true of every `New` result). */
  predicate Wellformed(sdk: Sdk) {
    sdk.esewa.Some? ==> !Nullish(sdk.esewa.value.config)
  }

  /**
   * The `try { switch } catch` block that `pay`, `verify` and `refund` share:
   * read `params.gateway`, reject an unknown key or an unconfigured gateway,
   * call the adapter, and normalise whatever was thrown.
   */
  function Run(sdk: Sdk, op: Operation, params: JsValue, khalti: KhaltiAdapter.KhaltiBackend)
    : (r: Result<PaymentResult, PaymentError>)
    requires op.Mandatory() && Wellformed(sdk)
    ensures Nullish(params) ==>
      r == Err(PaymentError(TypeErrorReading(params, "gateway"), Some(InternalErrorCode)))
    ensures !Nullish(params) && GatewayOf(Prop(params, "gateway")).None? ==> r == Err(UnsupportedGateway)
    ensures forall g: GatewayType :: !Nullish(params) && Prop(params, "gateway") == Str(g.Key()) ==>
      && (!sdk.Configured(g) ==> r == Err(g.NotConfigured()))
      && (sdk.Configured(g) ==> r == Normalize(Invoke(sdk, g, op, params, khalti)))
  {
    if Nullish(params) then
      Normalize(Err(Untyped(TypeErrorReading(params, "gateway"))))
    else
      match GatewayOf(Prop(params, "gateway"))
      case None => Normalize(Err(Typed(UnsupportedGateway)))
      case Some(g) =>
        if !sdk.Configured(g) then Normalize(Err(Typed(g.NotConfigured())))
        else Normalize(Invoke(sdk, g, op, params, khalti))
  }

  /** `pay`: the validation chain first, then the shared dispatch. */
  function Pay(sdk: Sdk, params: JsValue, khalti: KhaltiAdapter.KhaltiBackend): (r: Result<PaymentResult, PaymentError>)
    requires Wellformed(sdk)
    ensures !ValidPayParams(params) ==> r.Err? && r.error in ValidationErrors && Some(r.error) == ValidatePayParams(params)
    ensures ValidPayParams(params) ==> r == Run(sdk, PayOp, params, khalti)
  {
    match ValidatePayParams(params)
    case Some(e) => Err(e)
    case None => Run(sdk, PayOp, params, khalti)
  }

  /**
   * `verify`: no validation, only the shared dispatch. Any request naming a
   * configured gateway other than Khalti is answered success, echoing the
   * request, whatever else it carries or lacks.
   */
  function Verify(sdk: Sdk, params: JsValue, khalti: KhaltiAdapter.KhaltiBackend): (r: Result<PaymentResult, PaymentError>)
    requires Wellformed(sdk)
    ensures forall g: GatewayType ::
      (g != Khalti && !Nullish(params) && Prop(params, "gateway") == Str(g.Key()) && sdk.Configured(g)) ==>
        r == Ok(EchoSuccess(g.Key(), params, MockMessage(g, VerifyOp)))
    ensures Nullish(params) ==> r.Err? && r.error.code == Some(InternalErrorCode)
  {
    Run(sdk, VerifyOp, params, khalti)
  }

  /**
   * `refund`: no validation, only the shared dispatch. A configured gateway
   * other than Khalti echoes the request; Khalti's typed refund error passes
   * through unchanged.
   */
  function Refund(sdk: Sdk, params: JsValue, khalti: KhaltiAdapter.KhaltiBackend): (r: Result<PaymentResult, PaymentError>)
    requires Wellformed(sdk)
    ensures forall g: GatewayType ::
      (g != Khalti && !Nullish(params) && Prop(params, "gateway") == Str(g.Key()) && sdk.Configured(g)) ==>
        r == Ok(EchoSuccess(g.Key(), params, MockMessage(g, RefundOp)))
    ensures !Nullish(params) && Prop(params, "gateway") == Str(Khalti.Key()) && sdk.Configured(Khalti) ==>
      r == Err(KhaltiAdapter.RefundUnsupported)
    ensures Nullish(params) ==> r.Err? && r.error.code == Some(InternalErrorCode)
  {
    Run(sdk, RefundOp, params, khalti)
  }

  // ---------------------------------------------------------------------------
  // Ledger methods: the store is a process-wide value passed in and out.
  // ---------------------------------------------------------------------------

  /** `addTransaction` forwards to the store: the record is appended. */
  function AddTransaction(sdk: Sdk, store: TransactionStore.Store, record: TransactionStore.TransactionRecord)
    : (s': TransactionStore.Store)
    ensures s'.records == store.records + [record]
  {
    TransactionStore.AddTransaction(store, record)
  }

  /** `updateTransaction` forwards to the store: the first match is updated, nothing else changes. */
  function UpdateTransaction(sdk: Sdk, store: TransactionStore.Store, id: string,
                             update: TransactionStore.RecordUpdate, now: TransactionStore.Time)
    : (s': TransactionStore.Store)
    ensures |s'.records| == |store.records|
    ensures forall i :: TransactionStore.IsFirstMatch(store.records, id, i) ==>
      s'.records[i] == TransactionStore.Merge(store.records[i], update, now)
      && forall j :: 0 <= j < |store.records| && j != i ==> s'.records[j] == store.records[j]
    ensures TransactionStore.NoMatch(store.records, id) ==> s' == store
  {
    TransactionStore.UpdateTransaction(store, id, update, now)
  }

  /** `getTransaction` forwards to the store: the first record with the id, if any. */
  function GetTransaction(sdk: Sdk, store: TransactionStore.Store, id: string)
    : (r: Option<TransactionStore.TransactionRecord>)
    ensures r.None? <==> TransactionStore.NoMatch(store.records, id)
    ensures r.Some? ==> exists i :: TransactionStore.IsFirstMatch(store.records, id, i) && r.value == store.records[i]
  {
    TransactionStore.GetTransaction(store, id)
  }

  /** `listTransactions` forwards to the store: every record, in insertion order. */
  function ListTransactions(sdk: Sdk, store: TransactionStore.Store): (rs: seq<TransactionStore.TransactionRecord>)
    ensures rs == store.records
  {
    TransactionStore.ListTransactions(store)
  }
}

=== FILE: payment_sdk_properties.dfy ===
/**
 * Properties of the dispatcher that relate several calls or hold for every
 * configuration: validation ordering, the lookup error taxonomy, result
 * pass-through, error normalisation, and end-to-end behaviour against the
 * deterministic mock adapters.
 */
module PaymentSdkProperties {
  import opened Wrappers
  import opened Js
  import opened PaymentTypes
  import opened PaymentSdk
  import EsewaAdapter
  import KhaltiAdapter
  import ConnectIpsAdapter
  import ImePayAdapter
  import MobileBankingAdapter

  /** The public operation `op` of the SDK. */
  function Call(sdk: Sdk, op: Operation, params: JsValue, khalti: KhaltiAdapter.KhaltiBackend)
    : Result<PaymentResult, PaymentError>
    requires op.Mandatory() && Wellformed(sdk)
  {
    if op == PayOp then Pay(sdk, params, khalti)
    else if op == VerifyOp then Verify(sdk, params, khalti)
    else Refund(sdk, params, khalti)
  }

  /** `pay` reaches the dispatch step with these params: always for verify and refund. */
  predicate PassesValidation(op: Operation, params: JsValue) {
    op == PayOp ==> ValidPayParams(params)
  }

  /**
   * A `pay` request that fails validation is rejected before any adapter is
   * consulted: the answer is the same validation error whatever the SDK's
   * adapters and whatever Khalti would answer.
   */
  lemma ValidationPrecedesDispatch(sdk1: Sdk, sdk2: Sdk, params: JsValue,
                                   k1: KhaltiAdapter.KhaltiBackend, k2: KhaltiAdapter.KhaltiBackend)
    requires Wellformed(sdk1) && Wellformed(sdk2)
    requires !ValidPayParams(params)
    ensures Pay(sdk1, params, k1) == Pay(sdk2, params, k2)
    ensures Pay(sdk1, params, k1).Err? && Pay(sdk1, params, k1).error in ValidationErrors
  {
  }

  /** A request with no gateway and a zero amount is reported as MISSING_GATEWAY: the earlier check wins. */
  lemma MissingGatewayBeforeBadAmount(sdk: Sdk, khalti: KhaltiAdapter.KhaltiBackend)
    requires Wellformed(sdk)
    ensures Pay(sdk, Object(map["amount" := Number(0.0), "currency" := Str("NPR"), "returnUrl" := Str("url")]), khalti)
            == Err(MissingGateway)
  {
    var p := Object(map["amount" := Number(0.0), "currency" := Str("NPR"), "returnUrl" := Str("url")]);
    assert Prop(p, "gateway") == Undefined;
  }

  /** A zero or negative amount is INVALID_AMOUNT for every gateway key, configured or not. */
  lemma NonPositiveAmountRejected(sdk: Sdk, params: JsValue, khalti: KhaltiAdapter.KhaltiBackend)
    requires Wellformed(sdk)
    requires IsParamsObject(params) && Truthy(Prop(params, "gateway"))
    requires Prop(params, "amount").Number? && Prop(params, "amount").n <= 0.0
    ensures Pay(sdk, params, khalti) == Err(InvalidAmount)
  {
  }

  /** A known key whose adapter was not configured fails with that gateway's own NOT_CONFIGURED error. */
  lemma UnconfiguredGatewayRejected(sdk: Sdk, g: GatewayType, op: Operation, params: JsValue,
                                    khalti: KhaltiAdapter.KhaltiBackend)
    requires Wellformed(sdk) && op.Mandatory() && PassesValidation(op, params)
    requires !Nullish(params) && Prop(params, "gateway") == Str(g.Key())
    requires !sdk.Configured(g)
    ensures Call(sdk, op, params, khalti) == Err(g.NotConfigured())
  {
  }

  /** Any key outside the five gateway values fails with UNSUPPORTED_GATEWAY, for pay, verify and refund alike. */
  lemma UnknownGatewayRejected(sdk: Sdk, op: Operation, params: JsValue, khalti: KhaltiAdapter.KhaltiBackend)
    requires Wellformed(sdk) && op.Mandatory() && PassesValidation(op, params)
    requires !Nullish(params) && forall g: GatewayType :: Prop(params, "gateway") != Str(g.Key())
    ensures Call(sdk, op, params, khalti) == Err(UnsupportedGateway)
  {
  }

  /** When the adapter returns a result, the SDK returns exactly that result. */
  lemma AdapterResultUnchanged(sdk: Sdk, g: GatewayType, op: Operation, params: JsValue,
                               khalti: KhaltiAdapter.KhaltiBackend, res: PaymentResult)
    requires Wellformed(sdk) && op.Mandatory() && PassesValidation(op, params)
    requires !Nullish(params) && Prop(params, "gateway") == Str(g.Key()) && sdk.Configured(g)
    requires Invoke(sdk, g, op, params, khalti) == Ok(res)
    ensures Call(sdk, op, params, khalti) == Ok(res)
  {
  }

  /**
   * What an adapter throws reaches the caller normalised: a `PaymentError`
   * unchanged, any other error as INTERNAL_ERROR with its message, or
   * 'Unknown error' when the message is empty.
   */
  lemma AdapterErrorsNormalised(sdk: Sdk, g: GatewayType, op: Operation, params: JsValue,
                                khalti: KhaltiAdapter.KhaltiBackend)
    requires Wellformed(sdk) && op.Mandatory() && PassesValidation(op, params)
    requires !Nullish(params) && Prop(params, "gateway") == Str(g.Key()) && sdk.Configured(g)
    requires Invoke(sdk, g, op, params, khalti).Err?
    ensures var raised := Invoke(sdk, g, op, params, khalti).error;
      var r := Call(sdk, op, params, khalti);
      && r.Err?
      && (raised.Typed? ==> r.error == raised.err)
      && (raised.Untyped? && raised.message != "" ==> r.error == PaymentError(raised.message, Some(InternalErrorCode)))
      && (raised.Untyped? && raised.message == "" ==> r.error == PaymentError(UnknownErrorMessage, Some(InternalErrorCode)))
  {
  }

  /**
   * verify and refund do not validate: with eSewa configured, a request that
   * names only the gateway is accepted by both, while pay rejects it for its
   * amount.
   */
  lemma VerifyAndRefundDoNotValidate(sdk: Sdk, khalti: KhaltiAdapter.KhaltiBackend)
    requires Wellformed(sdk) && sdk.Configured(Esewa)
    ensures var p := Object(map["gateway" := Str("esewa")]);
      && Verify(sdk, p, khalti).Ok? && Verify(sdk, p, khalti).value.params == p
      && Refund(sdk, p, khalti).Ok? && Refund(sdk, p, khalti).value.params == p
      && Pay(sdk, p, khalti) == Err(InvalidAmount)
  {
    var p := Object(map["gateway" := Str("esewa")]);
    assert Prop(p, "gateway") == Str(Esewa.Key());
    assert Prop(p, "amount") == Undefined;
  }

  /** verify and refund of `null` or `undefined` fail inside the try block, so they surface as INTERNAL_ERROR. */
  lemma NullishVerifyIsInternalError(sdk: Sdk, params: JsValue, khalti: KhaltiAdapter.KhaltiBackend)
    requires Wellformed(sdk) && Nullish(params)
    ensures Verify(sdk, params, khalti).Err? && Verify(sdk, params, khalti).error.code == Some(InternalErrorCode)
    ensures Refund(sdk, params, khalti).Err? && Refund(sdk, params, khalti).error.code == Some(InternalErrorCode)
    ensures Verify(sdk, params, khalti).error.message != ""
  {
  }

  /**
   * End to end against the mock adapters: an SDK built with a ConnectIPS,
   * IME Pay or Mobile Banking entry answers every call that reaches dispatch
   * with success, the gateway's key and the request echoed back.
   */
  lemma MockGatewaysEcho(config: SdkConfig, g: GatewayType, op: Operation, params: JsValue,
                         khalti: KhaltiAdapter.KhaltiBackend)
    requires g == ConnectIps || g == ImePay || g == MobileBanking
    requires Truthy(ConfigEntry(config, g))
    requires op.Mandatory() && PassesValidation(op, params)
    requires !Nullish(params) && Prop(params, "gateway") == Str(g.Key())
    ensures Call(New(config), op, params, khalti) == Ok(EchoSuccess(g.Key(), params, MockMessage(g, op)))
  {
    var sdk := New(config);
    assert sdk.Configured(g);
  }

  /**
   * End to end through eSewa: a valid request yields the eSewa form whose
   * charge breakdown adds up, whose amounts are the positive request amount,
   * and whose success and failure URLs are both non-empty.
   */
  lemma EsewaPayEndToEnd(config: SdkConfig, params: JsValue, khalti: KhaltiAdapter.KhaltiBackend)
    requires Truthy(ConfigEntry(config, Esewa))
    requires ValidPayParams(params) && Prop(params, "gateway") == Str("esewa")
    ensures var r := Pay(New(config), params, khalti);
      && r.Ok? && r.value.gateway == "esewa" && r.value.status == Success
      && EsewaAdapter.TotalsAgree(r.value.params)
      && r.value.params.fields["amt"] == Prop(params, "amount") && r.value.params.fields["amt"].n > 0.0
      && Truthy(r.value.params.fields["su"]) && Truthy(r.value.params.fields["fu"])
      && r.value.params.fields["scd"] == Prop(ConfigEntry(config, Esewa), "clientId")
  {
    var sdk := New(config);
    assert Prop(params, "gateway") == Str(Esewa.Key());
    assert sdk.Configured(Esewa);
  }

  /** The errors the SDK itself can raise when no Khalti call is involved. */
  ghost predicate SdkRaised(e: PaymentError) {
    e in ValidationErrors || e == UnsupportedGateway || exists g: GatewayType :: e == g.NotConfigured()
  }

  /**
   * Without Khalti in the path, `pay` either returns a success result of the
   * requested gateway or rejects with one of the SDK's own typed errors:
   * never an untyped failure.
   */
  lemma PayOutcomesWithoutKhalti(sdk: Sdk, params: JsValue, khalti: KhaltiAdapter.KhaltiBackend)
    requires Wellformed(sdk)
    requires !Nullish(params) ==> Prop(params, "gateway") != Str("khalti")
    ensures var r := Pay(sdk, params, khalti);
      && (r.Ok? ==> r.value.status == Success && Prop(params, "gateway") == Str(r.value.gateway))
      && (r.Err? ==> SdkRaised(r.error))
  {
    var r := Pay(sdk, params, khalti);
    if ValidPayParams(params) {
      match GatewayOf(Prop(params, "gateway"))
      case None =>
      case Some(g) =>
        if !sdk.Configured(g) {
          assert r.error == g.NotConfigured();
        }
    }
  }

  /**
   * Every built-in adapter implements the mandatory operations and none of the
   * optional ones. Each adapter's `Capabilities` constant is written by hand
   * from the methods its class defines, so this records the classes' shape
   * rather than deriving it from the adapter functions.
   */
  lemma BuiltInAdaptersConform()
    ensures forall caps :: caps in [EsewaAdapter.Capabilities, KhaltiAdapter.Capabilities,
                                    ConnectIpsAdapter.Capabilities, ImePayAdapter.Capabilities,
                                    MobileBankingAdapter.Capabilities] ==>
      ImplementsPaymentGateway(caps) && SubscribeOp !in caps && CreateInvoiceOp !in caps && WalletOp !in caps
  {
    MandatoryOperations(CoreOperations);
  }
}

=== FILE: transaction_store.dfy ===
/**
 * The in-memory transaction ledger (`src/utils/transactionStore.ts`): an
 * append-only sequence of records with first-match lookup and update. The
 * module-level array of the source is the `Store` value threaded through
 * these functions, and the wall clock is the `now` argument.
 */
module TransactionStore {
  import opened Wrappers
  import opened Js
  import opened PaymentTypes

  /** A timestamp (milliseconds since the epoch). */
  type Time = int

  /** `TransactionRecord`: a `PaymentResult` plus the correlation id and two timestamps. */
  datatype TransactionRecord = TransactionRecord(
    gateway: string,
    status: PaymentStatus,
    params: JsValue,
    message: Option<string>,
    transactionId: string,
    createdAt: Time,
    updatedAt: Time)

  /** `Partial<TransactionRecord>`: the fields an update sets; `None` leaves a field alone. */
  datatype RecordUpdate = RecordUpdate(
    gateway: Option<string>,
    status: Option<PaymentStatus>,
    params: Option<JsValue>,
    message: Option<string>,
    transactionId: Option<string>,
    createdAt: Option<Time>,
    updatedAt: Option<Time>)

  /** The ledger: its records in insertion order. */
  datatype Store = Store(records: seq<TransactionRecord>)

  const Empty := Store([])

  /** `i` is the index `Array.prototype.find` stops at for `id`. */
  ghost predicate IsFirstMatch(rs: seq<TransactionRecord>, id: string, i: int) {
    0 <= i < |rs| && rs[i].transactionId == id && forall j :: 0 <= j < i ==> rs[j].transactionId != id
  }

  /** No record carries `id`. */
  ghost predicate NoMatch(rs: seq<TransactionRecord>, id: string) {
    forall j :: 0 <= j < |rs| ==> rs[j].transactionId != id
  }

  /** `transactions.find(t => t.transactionId === id)`, as an index. */
  function FindFirst(rs: seq<TransactionRecord>, id: string): (r: Option<nat>)
    ensures r.Some? ==> IsFirstMatch(rs, id, r.value)
    ensures r.None? <==> NoMatch(rs, id)
  {
    if |rs| == 0 then None
    else if rs[0].transactionId == id then Some(0)
    else match FindFirst(rs[1..], id)
      case None => None
      case Some(k) => Some(k + 1)
  }

  /** `Object.assign(tx, updates)` followed by `tx.updatedAt = new Date()`. */
  function Merge(r: TransactionRecord, u: RecordUpdate, now: Time): (m: TransactionRecord)
    ensures m.updatedAt == now
    ensures m.gateway == (if u.gateway.Some? then u.gateway.value else r.gateway)
    ensures m.status == (if u.status.Some? then u.status.value else r.status)
    ensures m.params == (if u.params.Some? then u.params.value else r.params)
    ensures m.message == (if u.message.Some? then Some(u.message.value) else r.message)
    ensures m.transactionId == (if u.transactionId.Some? then u.transactionId.value else r.transactionId)
    ensures m.createdAt == (if u.createdAt.Some? then u.createdAt.value else r.createdAt)
    ensures u == RecordUpdate(None, None, None, None, None, None, None) ==> m == r.(updatedAt := now)
  {
    TransactionRecord(
      if u.gateway.Some? then u.gateway.value else r.gateway,
      if u.status.Some? then u.status.value else r.status,
      if u.params.Some? then u.params.value else r.params,
      if u.message.Some? then Some(u.message.value) else r.message,
      if u.transactionId.Some? then u.transactionId.value else r.transactionId,
      if u.createdAt.Some? then u.createdAt.value else r.createdAt,
      now)
  }

  /** `addTransaction`: appends the record; there is no uniqueness check on its id. */
  function AddTransaction(s: Store, record: TransactionRecord): (s': Store)
    ensures |s'.records| == |s.records| + 1
    ensures s'.records[..|s.records|] == s.records
    ensures s'.records[|s.records|] == record
  {
    Store(s.records + [record])
  }

  /**
   * `updateTransaction`: merges the update into the first record with the id
   * and stamps it with `now`; every other record, and the order, is kept. An
   * unknown id changes nothing.
   */
  function UpdateTransaction(s: Store, id: string, u: RecordUpdate, now: Time): (s': Store)
    ensures |s'.records| == |s.records|
    ensures forall i :: IsFirstMatch(s.records, id, i) ==>
      s'.records[i] == Merge(s.records[i], u, now)
      && forall j :: 0 <= j < |s.records| && j != i ==> s'.records[j] == s.records[j]
    ensures NoMatch(s.records, id) ==> s' == s
  {
    match FindFirst(s.records, id)
    case None => s
    case Some(i) => Store(s.records[i := Merge(s.records[i], u, now)])
  }

  /** `getTransaction`: the first record with the id, or nothing. */
  function GetTransaction(s: Store, id: string): (r: Option<TransactionRecord>)
    ensures r.None? <==> NoMatch(s.records, id)
    ensures r.Some? ==> exists i :: IsFirstMatch(s.records, id, i) && r.value == s.records[i]
  {
    match FindFirst(s.records, id)
    case None => None
    case Some(i) => Some(s.records[i])
  }

  /** `listTransactions`: the records themselves, oldest first. */
  function ListTransactions(s: Store): seq<TransactionRecord> {
    s.records
  }

  // ---------------------------------------------------------------------------
  // Properties relating several calls.
  // ---------------------------------------------------------------------------

  /** The first match of an id in `a + b` lies in `a` when `a` has one, else it is `b`'s shifted by `|a|`. */
  lemma {:induction false} FindFirstAppend(a: seq<TransactionRecord>, b: seq<TransactionRecord>, id: string)
    ensures FindFirst(a + b, id) ==
      match FindFirst(a, id)
      case Some(i) => Some(i)
      case None => match FindFirst(b, id) case None => None case Some(k) => Some(|a| + k)
  {
    if |a| == 0 {
      assert a + b == b;
    } else {
      assert (a + b)[1..] == a[1..] + b;
      FindFirstAppend(a[1..], b, id);
    }
  }

  /**
   * `getTransaction` after `addTransaction` returns the added record when the
   * id was new, and the earlier record otherwise: duplicates are kept and
   * only the first is ever found.
   */
  lemma AddThenGet(s: Store, record: TransactionRecord)
    ensures var found := GetTransaction(AddTransaction(s, record), record.transactionId);
      && (NoMatch(s.records, record.transactionId) ==> found == Some(record))
      && (!NoMatch(s.records, record.transactionId) ==> found == GetTransaction(s, record.transactionId))
  {
    FindFirstAppend(s.records, [record], record.transactionId);
    assert FindFirst([record], record.transactionId) == Some(0);
  }

  /** How many records carry `id`. */
  function CountId(rs: seq<TransactionRecord>, id: string): nat {
    if |rs| == 0 then 0 else (if rs[0].transactionId == id then 1 else 0) + CountId(rs[1..], id)
  }

  lemma {:induction false} CountIdAppend(a: seq<TransactionRecord>, b: seq<TransactionRecord>, id: string)
    ensures CountId(a + b, id) == CountId(a, id) + CountId(b, id)
  {
    if |a| == 0 {
      assert a + b == b;
    } else {
      assert (a + b)[1..] == a[1..] + b;
      CountIdAppend(a[1..], b, id);
    }
  }

  /** Adding a record whose id is already present keeps both: the count of that id grows by one. */
  lemma DuplicatesRetained(s: Store, record: TransactionRecord)
    ensures CountId(AddTransaction(s, record).records, record.transactionId) == CountId(s.records, record.transactionId) + 1
  {
    CountIdAppend(s.records, [record], record.transactionId);
  }

  /**
   * After an update that leaves the id alone, `getTransaction` sees the merged
   * record: the new status (when one was given) and `updatedAt == now`.
   */
  lemma UpdateThenGet(s: Store, id: string, u: RecordUpdate, now: Time)
    requires !NoMatch(s.records, id)
    requires u.transactionId.None? || u.transactionId == Some(id)
    ensures var before := GetTransaction(s, id);
      var after := GetTransaction(UpdateTransaction(s, id, u, now), id);
      && before.Some? && after.Some?
      && after.value == Merge(before.value, u, now)
      && after.value.updatedAt == now
      && (u.status.Some? ==> after.value.status == u.status.value)
  {
    var i := FindFirst(s.records, id).value;
    var s' := UpdateTransaction(s, id, u, now);
    assert IsFirstMatch(s'.records, id, i);
  }

  /** A ledger call that can change the store. */
  datatype LedgerOp = Add(record: TransactionRecord) | Update(id: string, update: RecordUpdate, now: Time)

  function Step(s: Store, op: LedgerOp): Store {
    match op
    case Add(r) => AddTransaction(s, r)
    case Update(id, u, now) => UpdateTransaction(s, id, u, now)
  }

  /** The store after a sequence of calls, in order. */
  function Replay(s: Store, ops: seq<LedgerOp>): Store
    decreases |ops|
  {
    if |ops| == 0 then s else Replay(Step(s, ops[0]), ops[1..])
  }

  function CountAdds(ops: seq<LedgerOp>): nat {
    if |ops| == 0 then 0 else (if ops[0].Add? then 1 else 0) + CountAdds(ops[1..])
  }

  /**
   * No call removes a record: after any sequence of calls the ledger holds
   * exactly one more record per `addTransaction`.
   */
  lemma {:induction false} NoRecordRemoved(s: Store, ops: seq<LedgerOp>)
    ensures |Replay(s, ops).records| == |s.records| + CountAdds(ops)
    decreases |ops|
  {
    if |ops| > 0 {
      NoRecordRemoved(Step(s, ops[0]), ops[1..]);
    }
  }

  /** Additions alone list the earlier records first, then the added ones in call order. */
  lemma {:induction false} AddsListInInsertionOrder(s: Store, rs: seq<TransactionRecord>)
    ensures ListTransactions(Replay(s, seq(|rs|, i requires 0 <= i < |rs| => Add(rs[i])))) == s.records + rs
    ensures s == Empty ==> ListTransactions(Replay(s, seq(|rs|, i requires 0 <= i < |rs| => Add(rs[i])))) == rs
    decreases |rs|
  {
    var ops := seq(|rs|, i requires 0 <= i < |rs| => Add(rs[i]));
    if |rs| == 0 {
      assert s.records + rs == s.records;
    } else {
      var tail := seq(|rs[1..]|, i requires 0 <= i < |rs[1..]| => Add(rs[1..][i]));
      assert ops[1..] == tail;
      AddsListInInsertionOrder(Step(s, ops[0]), rs[1..]);
      assert s.records + [rs[0]] + rs[1..] == s.records + rs;
    }
  }
}

=== FILE: types.dfy ===
/**
 * The records, status enums, error shape and capability interface shared by
 * the SDK, its adapters and the example middlewares (`src/types/gateway.ts`
 * and `src/types/index.ts`).
 */
module PaymentTypes {
  import opened Wrappers
  import opened Js

  // ---------------------------------------------------------------------------
  // Status enums: string literal unions in the source.
  // ---------------------------------------------------------------------------

  /** `PaymentResult.status` (also `WalletResult.status`): 'success' | 'failure'. */
  datatype PaymentStatus = Success | Failure {
    function Wire(): string {
      match this
      case Success => "success"
      case Failure => "failure"
    }
  }

  /** `WalletResult.status` admits exactly the same two literals. */
  type WalletStatus = PaymentStatus

  /** `SubscriptionResult.status`: 'active' | 'inactive' | 'cancelled'. */
  datatype SubscriptionStatus = Active | Inactive | Cancelled {
    function Wire(): string {
      match this
      case Active => "active"
      case Inactive => "inactive"
      case Cancelled => "cancelled"
    }
  }

  /**
   * `InvoiceResult.status`: 'created' | 'paid' | 'cancelled'. The third
   * constructor is named `Voided` only because `Cancelled` is already taken by
   * `SubscriptionStatus` in this module; its wire value is 'cancelled'.
   */
  datatype InvoiceStatus = Created | Paid | Voided {
    function Wire(): string {
      match this
      case Created => "created"
      case Paid => "paid"
      case Voided => "cancelled"
    }
  }

  /** Reads a payment (or wallet) status string; exactly the two literals are accepted. */
  function ParsePaymentStatus(s: string): (r: Option<PaymentStatus>)
    ensures r.Some? <==> s == "success" || s == "failure"
    ensures forall st: PaymentStatus :: r == Some(st) <==> st.Wire() == s
  {
    if s == "success" then Some(Success)
    else if s == "failure" then Some(Failure)
    else None
  }

  /** Reads a subscription status string; exactly the three literals are accepted. */
  function ParseSubscriptionStatus(s: string): (r: Option<SubscriptionStatus>)
    ensures r.Some? <==> s == "active" || s == "inactive" || s == "cancelled"
    ensures forall st: SubscriptionStatus :: r == Some(st) <==> st.Wire() == s
  {
    if s == "active" then Some(Active)
    else if s == "inactive" then Some(Inactive)
    else if s == "cancelled" then Some(Cancelled)
    else None
  }

  /** Reads an invoice status string; exactly the three literals are accepted. */
  function ParseInvoiceStatus(s: string): (r: Option<InvoiceStatus>)
    ensures r.Some? <==> s == "created" || s == "paid" || s == "cancelled"
    ensures forall st: InvoiceStatus :: r == Some(st) <==> st.Wire() == s
  {
    if s == "created" then Some(Created)
    else if s == "paid" then Some(Paid)
    else if s == "cancelled" then Some(Voided)
    else None
  }

  // ---------------------------------------------------------------------------
  // Results: every operation answers { gateway, status, params, message? }.
  // ---------------------------------------------------------------------------

  /** The common result shape; `params` is the adapter's opaque payload. */
  datatype GatewayResult<S> = GatewayResult(gateway: string, status: S, params: JsValue, message: Option<string>)

  type PaymentResult = GatewayResult<PaymentStatus>
  type SubscriptionResult = GatewayResult<SubscriptionStatus>
  type InvoiceResult = GatewayResult<InvoiceStatus>
  type WalletResult = GatewayResult<WalletStatus>

  /** The result every mock adapter builds: success, with the request echoed back. */
  function EchoSuccess(gateway: string, params: JsValue, message: string): PaymentResult {
    GatewayResult(gateway, Success, params, Some(message))
  }

  // ---------------------------------------------------------------------------
  // Request records. Each carries its declared fields plus the open
  // `[key: string]: any` bag; on the wire it is one plain object.
  // ---------------------------------------------------------------------------

  const PaymentParamsKeys: set<string> := {"gateway", "amount", "currency", "returnUrl"}
  const VerifyParamsKeys: set<string> := {"gateway", "transactionId", "amount"}

  /** `PaymentParams`: gateway, amount, currency and returnUrl, plus extra fields. */
  datatype PaymentParams = PaymentParams(gateway: string, amount: real, currency: string, returnUrl: string,
                                         extra: map<string, JsValue>)
  {
    function ToJs(): JsValue {
      Object(extra + map["gateway" := Str(gateway), "amount" := Number(amount),
                         "currency" := Str(currency), "returnUrl" := Str(returnUrl)])
    }
  }

  /** `VerifyParams` and `RefundParams`: gateway, transactionId and amount, plus extra fields. */
  datatype VerifyParams = VerifyParams(gateway: string, transactionId: string, amount: real,
                                       extra: map<string, JsValue>)
  {
    function ToJs(): JsValue {
      Object(extra + map["gateway" := Str(gateway), "transactionId" := Str(transactionId),
                         "amount" := Number(amount)])
    }
  }

  type RefundParams = VerifyParams

  predicate IsStrField(fields: map<string, JsValue>, key: string) {
    key in fields && fields[key].Str?
  }

  predicate IsNumberField(fields: map<string, JsValue>, key: string) {
    key in fields && fields[key].Number?
  }

  /** Reads a plain object as `PaymentParams`, when its four declared fields have their declared types. */
  function PaymentParamsFromJs(v: JsValue): (r: Option<PaymentParams>)
    ensures r.Some? <==> v.Object? && IsStrField(v.fields, "gateway") && IsNumberField(v.fields, "amount")
                         && IsStrField(v.fields, "currency") && IsStrField(v.fields, "returnUrl")
    ensures r.Some? ==> r.value.extra.Keys !! PaymentParamsKeys
  {
    if v.Object? && IsStrField(v.fields, "gateway") && IsNumberField(v.fields, "amount")
       && IsStrField(v.fields, "currency") && IsStrField(v.fields, "returnUrl")
    then
      Some(PaymentParams(v.fields["gateway"].s, v.fields["amount"].n, v.fields["currency"].s,
                         v.fields["returnUrl"].s, v.fields - PaymentParamsKeys))
    else None
  }

  /** Reads a plain object as `VerifyParams`; currency and returnUrl are not needed. */
  function VerifyParamsFromJs(v: JsValue): (r: Option<VerifyParams>)
    ensures r.Some? <==> v.Object? && IsStrField(v.fields, "gateway") && IsStrField(v.fields, "transactionId")
                         && IsNumberField(v.fields, "amount")
    ensures r.Some? ==> r.value.extra.Keys !! VerifyParamsKeys
  {
    if v.Object? && IsStrField(v.fields, "gateway") && IsStrField(v.fields, "transactionId")
       && IsNumberField(v.fields, "amount")
    then
      Some(VerifyParams(v.fields["gateway"].s, v.fields["transactionId"].s, v.fields["amount"].n,
                        v.fields - VerifyParamsKeys))
    else None
  }

  /** Encoding then reading a payment request gives it back, whenever its extra bag does not shadow a declared field. */
  lemma PaymentParamsRoundTrip(p: PaymentParams)
    requires p.extra.Keys !! PaymentParamsKeys
    ensures PaymentParamsFromJs(p.ToJs()) == Some(p)
  {
    var f := p.ToJs().fields;
    assert f - PaymentParamsKeys == p.extra;
  }

  /** Reading then encoding a well-typed payment object gives back the same object. */
  lemma PaymentParamsFromJsInverse(v: JsValue)
    requires PaymentParamsFromJs(v).Some?
    ensures PaymentParamsFromJs(v).value.ToJs() == v
  {
    var f := PaymentParamsFromJs(v).value.ToJs().fields;
    assert f == v.fields;
  }

  /** Encoding then reading a verify/refund request gives it back. */
  lemma VerifyParamsRoundTrip(p: VerifyParams)
    requires p.extra.Keys !! VerifyParamsKeys
    ensures VerifyParamsFromJs(p.ToJs()) == Some(p)
  {
    var f := p.ToJs().fields;
    assert f - VerifyParamsKeys == p.extra;
  }

  /** Reading then encoding a well-typed verify/refund object gives back the same object. */
  lemma VerifyParamsFromJsInverse(v: JsValue)
    requires VerifyParamsFromJs(v).Some?
    ensures VerifyParamsFromJs(v).value.ToJs() == v
  {
    var f := VerifyParamsFromJs(v).value.ToJs().fields;
    assert f == v.fields;
  }

  // ---------------------------------------------------------------------------
  // The capability interface `IPaymentGateway`.
  // ---------------------------------------------------------------------------

  /** The six operations an adapter may expose. */
  datatype Operation = PayOp | VerifyOp | RefundOp | SubscribeOp | CreateInvoiceOp | WalletOp {
    /** pay, verify and refund are required; the other three are optional (`?` in the interface). */
    predicate Mandatory() {
      PayOp? || VerifyOp? || RefundOp?
    }
  }

  /** An adapter that exposes the operations `caps` conforms to `IPaymentGateway`. */
  predicate ImplementsPaymentGateway(caps: set<Operation>) {
    forall op: Operation :: op.Mandatory() ==> op in caps
  }

  /** The operations of an adapter that implements the interface and nothing optional. */
  const CoreOperations: set<Operation> := {PayOp, VerifyOp, RefundOp}

  /**
   * The interface's requirement, stated as a set: exactly the three core
   * operations are mandatory. This is a fact about the `Operation` constants;
   * which operations an adapter has is recorded by hand in its `Capabilities`.
   */
  lemma MandatoryOperations(caps: set<Operation>)
    ensures ImplementsPaymentGateway(caps) <==> CoreOperations <= caps
    ensures ImplementsPaymentGateway(CoreOperations)
    ensures !ImplementsPaymentGateway(CoreOperations - {RefundOp})
    ensures forall op: Operation :: !op.Mandatory() ==> ImplementsPaymentGateway(caps) == ImplementsPaymentGateway(caps - {op})
  {
    assert !ImplementsPaymentGateway(CoreOperations - {RefundOp}) by {
      assert RefundOp.Mandatory() && RefundOp !in CoreOperations - {RefundOp};
    }
    if ImplementsPaymentGateway(caps) {
      assert PayOp.Mandatory() && VerifyOp.Mandatory() && RefundOp.Mandatory();
    }
  }

  // ---------------------------------------------------------------------------
  // Errors.
  // ---------------------------------------------------------------------------

  const PaymentErrorName := "PaymentError"

  /** `PaymentError`: an Error carrying a message and an optional code. */
  datatype PaymentError = PaymentError(message: string, code: Option<string>) {
    /** The `name` property the constructor sets. */
    function Name(): string {
      PaymentErrorName
    }

    /** The `code` property as JavaScript sees it. */
    function CodeValue(): (v: JsValue)
      ensures code.None? <==> v == Undefined
      ensures code.Some? ==> v == Str(code.value)
    {
      if code.Some? then Str(code.value) else Undefined
    }
  }

  /** What an adapter call can throw: a `PaymentError`, or any other Error with its message. */
  datatype Raised = Typed(err: PaymentError) | Untyped(message: string)
}

=== FILE: validate_payment.dfy ===
/**
 * The example server's request validator
 * (`examples/express-server/middlewares/validatePayment.ts`): a 400 for a
 * body missing a field or carrying a bad amount, `next()` otherwise.
 */
module ValidatePayment {
  import opened Wrappers
  import opened Js
  import PaymentSdk

  const MissingFieldsMessage := "Missing required fields: gateway, amount, currency, returnUrl"
  const BadAmountMessage := "Amount must be a positive number"

  /** What the middleware does with a request body. */
  datatype Verdict =
    | Reject(status: int, message: string) // `res.status(status).json({ error: message })`
    | Next                                 // `next()`
    | Threw(message: string)               // destructuring a missing body throws a TypeError

  /** All four required fields are truthy. */
  predicate FieldsPresent(body: JsValue)
    requires !Nullish(body)
  {
    Truthy(Prop(body, "gateway")) && Truthy(Prop(body, "amount"))
    && Truthy(Prop(body, "currency")) && Truthy(Prop(body, "returnUrl"))
  }

  /** `validatePayment`: the missing-fields check, then the amount-type check, then `next()`. */
  function Validate(body: JsValue): (v: Verdict)
    ensures v.Threw? <==> Nullish(body)
    ensures v == Reject(400, MissingFieldsMessage) <==> !Nullish(body) && !FieldsPresent(body)
    ensures v == Reject(400, BadAmountMessage) <==>
      !Nullish(body) && FieldsPresent(body) && !(Prop(body, "amount").Number? && Prop(body, "amount").n > 0.0)
    ensures v.Next? <==>
      !Nullish(body) && FieldsPresent(body) && Prop(body, "amount").Number? && Prop(body, "amount").n > 0.0
    ensures v.Reject? ==> v.status == 400
  {
    if Nullish(body) then
      Threw("Cannot destructure property 'gateway' of 'req.body' as it is " + (if body.Null? then "null" else "undefined") + ".")
    else if !FieldsPresent(body) then Reject(400, MissingFieldsMessage)
    else if TypeOf(Prop(body, "amount")) != NumberType || !(Prop(body, "amount").Number? && Prop(body, "amount").n > 0.0) then
      Reject(400, BadAmountMessage)
    else Next
  }

  /**
   * The middleware and the SDK's `pay` chain accept exactly the same bodies:
   * what reaches `next()` passes all five checks of `pay`, and the converse.
   */
  lemma AcceptedExactlyWhenPayAccepts(body: JsValue)
    ensures Validate(body).Next? <==> PaymentSdk.ValidPayParams(body)
    ensures Validate(body).Next? ==> PaymentSdk.ValidatePayParams(body).None?
  {
    if Validate(body).Next? {
      assert body.Object?;
    }
  }

  /**
   * The two orders differ: for a body with a zero amount and no currency the
   * middleware reports the missing fields, while `pay` reports the amount.
   */
  lemma FirstErrorDiffersFromPay()
    ensures var body := Object(map["gateway" := Str("esewa"), "amount" := Number(0.0), "returnUrl" := Str("u")]);
      && Validate(body) == Reject(400, MissingFieldsMessage)
      && PaymentSdk.ValidatePayParams(body) == Some(PaymentSdk.InvalidAmount)
  {
    var body := Object(map["gateway" := Str("esewa"), "amount" := Number(0.0), "returnUrl" := Str("u")]);
    assert Prop(body, "currency") == Undefined;
    assert Prop(body, "amount") == Number(0.0);
  }
}

=== FILE: webhook.dfy ===
/**
 * The webhook intake decision (`src/handlers/webhook.ts`): which gateway key
 * a callback names, and whether it is answered 400, 401 or 200 or forwarded
 * to the error middleware. The Express request and response objects are
 * reduced to the query bag, the body, and the outcome value.
 */
module Webhook {
  import opened Wrappers
  import opened Js
  import opened PaymentTypes
  import PaymentSdk

  /** The gateway keys the handler's switch names. */
  const WebhookGateways: set<string> := {"esewa", "khalti", "connectips", "imepay", "mobilebanking"}

  const MissingGatewayMessage := "Missing gateway parameter"
  const InvalidSignatureMessage := "Invalid signature"
  const UnsupportedInWebhook := PaymentError("Unsupported gateway in webhook", Some("UNSUPPORTED_GATEWAY"))

  /** The acknowledgement body `{ received: true }`. */
  const Received := Object(map["received" := Bool(true)])

  /** The parts of the request the handler reads. */
  datatype WebhookRequest = WebhookRequest(query: map<string, JsValue>, body: JsValue)

  /** What the handler does with the request. */
  datatype Outcome =
    | Reply(status: int, body: JsValue, event: JsValue) // `res.status(status).json(body)`; `event` as parsed, or undefined
    | Forwarded(err: PaymentError)                      // `next(err)`, no direct response
    | Threw(message: string)                            // a TypeError thrown out of the handler

  /** The signature check is a stub that accepts every request. */
  function VerifySignature(gateway: JsValue, req: WebhookRequest): (ok: bool)
    ensures ok
  {
    true
  }

  /** `req.query.gateway || req.body.gateway`; reading the body's field throws when there is no body. */
  function ResolveGateway(req: WebhookRequest): (r: Result<JsValue, string>)
    ensures Truthy(Field(req.query, "gateway")) ==> r == Ok(Field(req.query, "gateway"))
    ensures !Truthy(Field(req.query, "gateway")) && !Nullish(req.body) ==> r == Ok(Prop(req.body, "gateway"))
    ensures r.Err? <==> !Truthy(Field(req.query, "gateway")) && Nullish(req.body)
  {
    var q := Field(req.query, "gateway");
    if Truthy(q) then Ok(q)
    else if Nullish(req.body) then Err(TypeErrorReading(req.body, "gateway"))
    else Ok(Prop(req.body, "gateway"))
  }

  /** The key names one of the five gateways of the switch. */
  predicate IsWebhookGateway(gateway: JsValue) {
    gateway.Str? && gateway.s in WebhookGateways
  }

  /** The per-gateway parsing step: every known gateway's event is the body unchanged. */
  function ParseEvent(gateway: JsValue, body: JsValue): (r: Option<JsValue>)
    ensures r.Some? <==> IsWebhookGateway(gateway)
    ensures r.Some? ==> r.value == body
  {
    if gateway == Str("esewa") then Some(body)
    else if gateway == Str("khalti") then Some(body)
    else if gateway == Str("connectips") then Some(body)
    else if gateway == Str("imepay") then Some(body)
    else if gateway == Str("mobilebanking") then Some(body)
    else None
  }

  /**
   * `paymentWebhookHandler`: 400 without a gateway key, 401 on a failed
   * signature (never, with the stub), 200 `{received: true}` for the five
   * gateways, and UNSUPPORTED_GATEWAY forwarded to `next` for any other key.
   */
  function Handle(req: WebhookRequest): (o: Outcome)
    ensures o.Threw? <==> ResolveGateway(req).Err?
    ensures o.Reply? ==> o.status != 401
    ensures o.Reply? && o.status == 400 <==> ResolveGateway(req).Ok? && !Truthy(ResolveGateway(req).value)
    ensures o.Reply? && o.status == 400 ==> o.body == Object(map["error" := Str(MissingGatewayMessage)])
    ensures o.Reply? && o.status == 200 <==> ResolveGateway(req).Ok? && IsWebhookGateway(ResolveGateway(req).value)
    ensures o.Reply? && o.status == 200 ==> o.body == Received && o.event == req.body
    ensures o.Forwarded? <==>
      ResolveGateway(req).Ok? && Truthy(ResolveGateway(req).value) && !IsWebhookGateway(ResolveGateway(req).value)
    ensures o.Forwarded? ==> o.err.code == Some(PaymentSdk.UnsupportedGatewayCode)
  {
    match ResolveGateway(req)
    case Err(m) => Threw(m)
    case Ok(gateway) =>
      if !Truthy(gateway) then Reply(400, Object(map["error" := Str(MissingGatewayMessage)]), Undefined)
      else if !VerifySignature(gateway, req) then Reply(401, Object(map["error" := Str(InvalidSignatureMessage)]), Undefined)
      else match ParseEvent(gateway, req.body)
        case None => Forwarded(UnsupportedInWebhook)
        case Some(event) => Reply(200, Received, event)
  }

  /** The webhook acknowledges exactly the keys of the SDK's `GatewayType`. */
  lemma WebhookGatewaysAreSdkGateways(gateway: JsValue)
    ensures IsWebhookGateway(gateway) <==> PaymentSdk.GatewayOf(gateway).Some?
  {
    if IsWebhookGateway(gateway) {
      var s := gateway.s;
      assert s == "esewa" || s == "khalti" || s == "connectips" || s == "imepay" || s == "mobilebanking";
      if s == "esewa" { assert gateway == Str(PaymentSdk.GatewayType.Esewa.Key()); }
      else if s == "khalti" { assert gateway == Str(PaymentSdk.GatewayType.Khalti.Key()); }
      else if s == "connectips" { assert gateway == Str(PaymentSdk.GatewayType.ConnectIps.Key()); }
      else if s == "imepay" { assert gateway == Str(PaymentSdk.GatewayType.ImePay.Key()); }
      else { assert gateway == Str(PaymentSdk.GatewayType.MobileBanking.Key()); }
    }
  }

  /**
   * A truthy query parameter decides the outcome: the body's own `gateway`
   * field then changes nothing but the event carried.
   */
  lemma QueryTakesPrecedence(query: map<string, JsValue>, b1: JsValue, b2: JsValue)
    requires Truthy(Field(query, "gateway"))
    ensures var o1 := Handle(WebhookRequest(query, b1));
      var o2 := Handle(WebhookRequest(query, b2));
      && !o1.Threw?
      && o1.Reply? == o2.Reply? && o1.Forwarded? == o2.Forwarded?
      && (o1.Reply? ==> o1.status == o2.status && o1.body == o2.body)
      && (o1.Forwarded? ==> o1.err == o2.err)
  {
  }

  /** The example callback of the SDK's test suite: `?gateway=esewa` with a JSON body is acknowledged with 200. */
  lemma EsewaCallbackAcknowledged(body: JsValue)
    ensures Handle(WebhookRequest(map["gateway" := Str("esewa")], body)) == Reply(200, Received, body)
  {
  }
}

=== FILE: wrappers.dfy ===
/** The two failure-carrying shapes used throughout the model. */
module Wrappers {

  /** A value that may be missing (`undefined` in the source). */
  datatype Option<+T> = None | Some(value: T)

  /** The outcome of an operation that either returns a value or throws. */
  datatype Result<+T, +E> = Ok(value: T) | Err(error: E)
}
